=== FILE: README.md ===
# nwgcc status parsing and display rules, in Dafny

nwgcc is a GTK control-center applet. It shows volume, brightness, battery,
Wi-Fi and Bluetooth status, plus a label holding the output of user-chosen
commands. It gets most of that by running command-line tools and parsing
their text output. This project models that parsing and the display rules
built on it. It proves what they compute for every input.

- `wrappers.dfy` (module `Wrappers`): `Option`, for a command whose failure
  the applet catches.
- `pystr.dfy` (module `PyStr`): the Python `str` operations the parsers use.
  These are `isspace`, `strip`, `split()`, `splitlines()`, `join`, `in`,
  `replace` and `split(c)[0]`, with CPython's semantics, and `int()`
  restricted to an optional sign followed by ASCII digits (Python also
  accepts surrounding whitespace, `_` between digits and non-ASCII digits). Lemmas
  about them include `split()` after a single-space `join`,
  `splitlines()` after a `"\n"` join, and `int(str(n)) == n`.
- `tools.dfy` (module `Tools`): the parsing half of `nwgcc/tools.py`.
  - `get_battery` for `upower` and `acpi`: a method with the loop of the
    source, proved against a function stating each field line by line.
  - `bt_on` and `bt_name`.
  - The program name `is_command` looks up.
  - The de-duplicating loop of `check_all_commands` and the line filter of
    `parse_cli_commands`, both methods with loop invariants.
  - The integer scaling in `set_volume`.
- `rows.dfy` (module `Rows`): the display logic of `nwgcc/main.py`.
  - The `get_values` classifiers of the battery, volume, brightness, Wi-Fi
    and Bluetooth rows.
  - `CliLabel`, a class whose `Update` method builds the label text with
    the loop of the source.

A command's standard output is a parameter. It is `None` where the source
catches the command's failure. Whether a command is available is a boolean,
or a lookup function for `is_command`. Where the source raises on some
input, the operation has a precondition that excludes that input. Examples
are a blank line in `upower` output, a percentage `int()` rejects, and
fewer than two words for `bt_on`.

Behaviours of the code the model keeps as they are:
- `set_volume` truncates `percent * max_vol / 100` toward zero, while
  `get_volume` rounds.
- Only "time to empty" becomes one word. A "time to full" line does not
  match any of the three keys.
- `bt_name` returns the second word of the output.
- The brightness icons are brightness-high, brightness-medium and
  brightness-low.
- A parse failure in `get_battery` raises. The model keeps it as a
  precondition.
- The muted volume icon is guarded by the wrong key (see Findings).

## Model

| member | source | states |
|---|---|---|
| Tools.Cmd2String | nwgcc/tools.py:143-144 | the output with its leading and trailing whitespace removed: empty, or starting and ending with a non-whitespace character |
| Tools.Cmd2StringWords | nwgcc/tools.py:143-144 | stripping a command's output keeps exactly the words it printed |
| Tools.OutputEmptyWithoutWords | nwgcc/tools.py:143-144 | the stripped output is empty exactly when the command printed no words |
| Tools.BaseCommand | nwgcc/tools.py:148 | the name looked up is a single non-empty word without whitespace |
| Tools.BaseCommandIsFirstWord | nwgcc/tools.py:148 | the name `is_command` looks up is the first run of non-whitespace characters of the command line, ended by whitespace or the end |
| Tools.BaseCommandOfCommandLine | nwgcc/tools.py:148 | a program name followed by a space and any arguments has that program name |
| Tools.IsCommand | nwgcc/tools.py:147-164 | a command is available exactly when the lookup of its program name succeeds and prints at least one word |
| Tools.IsCommandIgnoresArguments | nwgcc/tools.py:147-164 | availability depends only on the program name: adding arguments never changes it |
| Tools.FirstAppearancesStep | nwgcc/tools.py:170-173 | one more configured command keeps the list distinct and in first-appearance order, adding the program name only if it is new |
| Tools.CheckAllCommands | nwgcc/tools.py:167-173 | the probed list holds each distinct program name exactly once, exactly the names of the configured commands, in order of first appearance |
| Tools.CliCommands | nwgcc/tools.py:199-202 | every kept line is stripped, non-empty and starts with neither "#" nor "//" |
| Tools.CliCommandsAppend | nwgcc/tools.py:199-202 | two consecutive parts of the file contribute their commands independently, in file order |
| Tools.CliCommandsMembers | nwgcc/tools.py:196-203 | a text is in the result exactly when it is a command line and some line of the file strips to it |
| Tools.ParseCliCommands | nwgcc/tools.py:196-203 | the loop returns the stripped command lines of the file, in file order |
| Tools.RawVolume | nwgcc/tools.py:63 | the raw value is `percent * max_vol / 100` truncated toward zero, with remainder bounds for both signs |
| Tools.RawVolumeRange | nwgcc/tools.py:62-63 | a slider position 0..100 maps into 0..max_vol, with 0 to 0 and 100 to max_vol |
| Tools.RawVolumeMonotonic | nwgcc/tools.py:63 | a higher slider position never gives a lower raw volume |
| Tools.BtOn | nwgcc/tools.py:120-122 | true exactly when the second word of the output is "yes", case-sensitively |
| Tools.BtName | nwgcc/tools.py:125-127 | the second word of the output |
| Tools.PercentValue | nwgcc/tools.py:100-115 | the number `int()` reads from the part before the first "%"; negative only when the token starts with "-" |
| Tools.PercentWithComma | nwgcc/tools.py:115 | the `acpi` token "58%," with its trailing comma reads as 58 |
| Tools.PercentValueOfDecimal | nwgcc/tools.py:100 | a token "N%" passes `int(token.split("%")[0])` and reads back as N |
| Tools.UpowerWords | nwgcc/tools.py:93-96 | every word of a normalised line is non-empty and free of whitespace |
| Tools.UpowerWordsPlain | nwgcc/tools.py:93-96 | a line without "time to empty" has the words `split()` finds in it |
| Tools.UpowerWordsTimeToEmpty | nwgcc/tools.py:93-96 | a "time to empty:" line with any indentation, any run of whitespace before the value v and any trailing whitespace splits into the single key word "time_to_empty:" followed by the words of v |
| Tools.LastWithKeySnoc | nwgcc/tools.py:92-104 | a line read after the others is the last line carrying a key exactly when its first word contains the key |
| Tools.PercentageLast | nwgcc/tools.py:98-100 | `percentage` and `perc_val` come from the last line whose first word contains "percentage:"; they are "" and 0 without one |
| Tools.StateLast | nwgcc/tools.py:101-102 | `state` is the second word of the last line whose first word contains "state:", or "" |
| Tools.TimeToEmptyLast | nwgcc/tools.py:103-104 | `time` is the words after the key on the last "time_to_empty:" line, joined by single spaces, or "" |
| Tools.FieldsNext | nwgcc/tools.py:92-104 | one more line sets each field to that line's value when its first word carries the key, and leaves it unchanged otherwise |
| Tools.UnkeyedLineIgnored | nwgcc/tools.py:92-104 | a line whose first word carries none of the three keys changes no field |
| Tools.SummarizeUpower | nwgcc/tools.py:91-105 | the loop over the `upower` lines returns `percentage + " " + state + " " + time` and `perc_val`, each from the last line carrying its key |
| Tools.GetBattery | nwgcc/tools.py:82-117 | the method returns the reading of the battery specification for the program named by the command and its output |
| Tools.OtherProgramNoBattery | nwgcc/tools.py:82-117 | a program other than `upower` and `acpi` gives ("", 0) whatever it printed |
| Tools.AcpiWithoutOutput | nwgcc/tools.py:106-117 | `acpi` that fails or prints no words gives ("", 0) |
| Tools.UpowerWithoutOutput | nwgcc/tools.py:85-105 | `upower` that fails still joins the three empty fields: the message is two spaces and the percentage 0 |
| Tools.BatteryReading | nwgcc/tools.py:82-117 | any other program gives ("", 0); `acpi` gives ("", 0) exactly when it has no first line; `upower` always gives a message of at least the two separating spaces |
| Tools.AcpiReading | nwgcc/tools.py:106-115 | an `acpi` line of words, the fourth a percentage, gives its words from the third on joined by spaces and the fourth word's number |
| Tools.AcpiExample | nwgcc/tools.py:106-115 | "Battery 0: Discharging, 58%, 01:30:00 remaining" gives ("Discharging, 58%, 01:30:00 remaining", 58) |
| Tools.UpowerWordsPair | nwgcc/tools.py:92-96 | a line of two words without the phrase "time to empty", with any indentation and trailing whitespace, splits into exactly those two words |
| Tools.UpowerWordsTimePair | nwgcc/tools.py:92-96 | an indented "time to empty: x y" line, where x and y are words, splits into "time_to_empty:", x, y |
| Tools.FieldsOfThree | nwgcc/tools.py:91-105 | of three well-formed lines, the first carrying "state:", the second "percentage:" but not "state:", the third "time_to_empty:" but neither other key, each is the last line with its key, and they give the state, the percentage with its value, and the joined time words |
| Tools.UpowerExample | nwgcc/tools.py:85-105 | `upower -i` output "  state: discharging\n  percentage: 73%\n  time to empty: 2.5 hours" gives ("73% discharging 2.5 hours", 73), and its lines meet the requires of Tools.UpowerMessageWords |
| Tools.TimeToEmptyWords | nwgcc/tools.py:103-104 | the time field splits back into exactly the words that followed the key on the last "time_to_empty:" line |
| Tools.AcpiMessageWords | nwgcc/tools.py:112-114 | the `acpi` message splits back into the words of the first line from the third on |
| Tools.SummaryWords | nwgcc/tools.py:105 | two words and a space-joined list, formatted with single spaces, split back into those words |
| Tools.UpowerMessageWords | nwgcc/tools.py:91-105 | with all three fields present, the `upower` message splits into the percentage, the state and the time words, in that order |
| Rows.Icon | nwgcc/main.py:179-186 | the ICONS entry for the key when it is present, "icon-missing" otherwise |
| Rows.ChargeOf | nwgcc/main.py:178-185 | full exactly above 95, good in 51..95, low in 21..50, empty at 20 and below |
| Rows.ChargeMonotonic | nwgcc/main.py:178-185 | a higher percentage never shows a lower battery tier |
| Rows.BatteryValues | nwgcc/main.py:171-186 | the main command's reading when it is found; the alternative's only when it is not; otherwise "" with the empty icon; the icon is that of the tier, or "icon-missing" when its key is absent |
| Rows.BatteryPrefersPrimary | nwgcc/main.py:174-177 | while the main command is found, the alternative command makes no difference |
| Rows.TierOf | nwgcc/main.py:309-314 | high exactly above 70, medium in 31..70, low at 30 and below |
| Rows.TierMonotonic | nwgcc/main.py:361-366 | a higher level never shows a lower volume or brightness tier |
| Rows.VolumeValues | nwgcc/main.py:305-320 | as written: the level passes through unchanged; switched on with a level, the icon is that of the level's tier; otherwise the muted icon when "volume-low" is in ICONS, else "icon-missing" |
| Rows.VolumeValuesIntended | nwgcc/main.py:305-320 | the level passes through; switched on with a level, the tier's icon; otherwise the muted icon, or "icon-missing" when its key is absent |
| Rows.MutedIgnoresLevel | nwgcc/main.py:315-318 | switched off or without a level, the icon is the same whatever the level |
| Rows.VolumeAsWrittenAgrees | nwgcc/main.py:316-318 | the code as written agrees with the corrected one unless "volume-muted" is present without "volume-low" |
| Rows.VolumeMutedIconMissing | nwgcc/main.py:316 | with only "volume-muted" in ICONS, the muted row shows "icon-missing" although the icon exists |
| Rows.VolumeMutedLookupFails | nwgcc/main.py:318 | with "volume-low" but no "volume-muted" in ICONS, a switched-off channel makes the lookup raise |
| Rows.BrightnessValues | nwgcc/main.py:359-368 | the level passes through; the icon is that of the level's tier, or "icon-missing" |
| Rows.WifiValues | nwgcc/main.py:194-207 | output with words gives the stripped output, which has the same words, as the name with the wifi-on icon; failure or blank output gives "disconnected" with wifi-off |
| Rows.BluetoothValues | nwgcc/main.py:215-223 | when the status's second word is "yes", the name query's second word with bt-on; otherwise "disabled" with bt-off |
| Rows.Piece | nwgcc/main.py:95-96 | an output of at most 38 characters is kept; a longer one becomes its first 38 characters and "…" |
| Rows.PieceKeepsLines | nwgcc/main.py:95-96 | cutting adds no line break and empties only the empty output |
| Rows.LabelText | nwgcc/main.py:90-100 | the label is empty without commands and holds at most 40 characters per command: a piece of at most 39 and one "\n" |
| Rows.PartialTextStep | nwgcc/main.py:97-99 | a turn of the loop appends the next piece and, except after the last, one "\n" |
| Rows.PiecesKeepLines | nwgcc/main.py:92-99 | outputs on one line give pieces on one line; a non-empty last output gives a non-empty last piece |
| Rows.LabelLines | nwgcc/main.py:91-100 | with single-line outputs and a last output with words, the label splits into exactly one line per command, its piece; so there are len − 1 separators and no trailing newline |
| Rows.CliLabel.constructor | nwgcc/main.py:84-88 | a new label shows the text `update` builds |
| Rows.CliLabel.Update | nwgcc/main.py:90-100 | the text is the pieces of the outputs joined by "\n" |

## Left out

- GTK widgets, pixbufs, CSS, event handlers and timers: UI plumbing with no parsing or classification in it.
- Running commands (`cmd2string`, `check_output`, `Popen`, `call`) and the `command -v` lookup: outputs are parameters, and availability is a boolean or a lookup function.
- `get_volume`, and the ALSA mixer calls of `set_volume`: a foreign binding with float rounding. Only the integer scaling of `set_volume` is modelled.
- `get_brightness`, `set_brightness`: they parse floats and run a command.
- `bt_service_enabled`, `get_config_dir`, `init_config_files`, `load_json`, `save_json`: process and file I/O.
- The file reading of `parse_cli_commands`: the model takes the file's lines.
- The progress messages of `check_all_commands` and its second loop calling `is_command` on each name: output only. `Tools.CheckAllCommands` returns the list that loop probes.
- The row `update` methods and their `old_icon` / `play_pause_icon` fields: they only refresh widgets.
- Tools.RawVolume: computed on exact integers. The source divides in floating point and the slider passes a float (`nwgcc/main.py:276-277`), so the model equals the source only while the float quotient cannot round up onto the next integer, roughly while |percent·max_vol| < 2^46·100.
- Tools.PercentValue: `int()` is modelled as an optional sign followed by ASCII digits. Python also accepts surrounding whitespace, `_` between digits and non-ASCII digits, so the model's precondition rejects some tokens the source accepts.
- Tools.GetBattery: the source raises on several inputs, and the model excludes them by precondition instead of modelling the exception. These are:
  - a blank `upower` line;
  - a percentage `int()` rejects;
  - a `percentage:` or `state:` line with a single word (`parts[1]`, `nwgcc/tools.py:99`, `:102`);
  - an `acpi` first line with fewer than four words (`parts[3]`, `nwgcc/tools.py:115`);
  - a blank command line (`cmd.split()[0]`, `nwgcc/tools.py:85`), which `Tools.IsCommand` and `Tools.CheckAllCommands` exclude the same way (`nwgcc/tools.py:148`, `:171`).
- Tools.BtOn: the source raises on output with fewer than two words. The model excludes it by precondition, as it does for `Tools.BtName` and `Rows.BluetoothValues`.
- Rows.BluetoothValues, Rows.CliLabel.Update: their outputs are plain strings. `bt_on` and `bt_name` (`nwgcc/tools.py:121`, `:126`) and the `cmd2string` call of `update` (`nwgcc/main.py:94`) do not catch a failing command, which raises `CalledProcessError`. The model does not represent that failure.
- Rows.BrightnessValues: takes an `int`. An unreadable brightness (`None`) raises `TypeError` in the source at `bri > 70`, and is not modelled.
- Rows.VolumeValues: takes the level as `Option<int>` and the switch as a boolean, the pair `get_values` unpacks. `get_volume` in `nwgcc/tools.py` returns a single number, so that call would raise as written.
- Rows.VolumeValues: the `KeyError` raised when "volume-low" is in ICONS but "volume-muted" is not is excluded by precondition (`VolumeLookupOk`).

## Findings

| source | as written | input that shows it | evidently intended | confidence | as-written member | corrected member |
|---|---|---|---|---|---|---|
| nwgcc/main.py:316 | the muted icon `ICONS["volume-muted"]` is guarded by `"volume-low" in ICONS` (also line 318) | ICONS = {"volume-muted": "muted.svg"}, level None: the row shows "icon-missing"; ICONS = {"volume-low": ...} with the channel switched off: `KeyError` | guard the lookup by `"volume-muted" in ICONS`, like every other icon | not executed | Rows.VolumeMutedIconMissing | Rows.VolumeValuesIntended |

=== FILE: pystr.dfy ===
/**
 * The Python `str` operations the applet's parsers are built from, with the
 * semantics CPython gives them: `isspace`, `strip`, `split()` (no argument),
 * `splitlines()`, `sep.join`, `in`, `replace` and `split(c)[0]`; and `int()`
 * restricted to an optional sign followed by ASCII digits.
 * A Dafny `char` is a Unicode scalar value, as every character of a `str`
 * decoded from UTF-8 is.
 */
module PyStr {
  import opened Wrappers

  /** `c.isspace()`: the characters CPython treats as whitespace. */
  predicate IsSpace(c: char) {
    || c == ' '
    || '\t' <= c <= '\r'
    || '\U{1C}' <= c <= '\U{1F}'
    || c == '\U{85}' || c == '\U{A0}' || c == '\U{1680}'
    || '\U{2000}' <= c <= '\U{200A}'
    || c == '\U{2028}' || c == '\U{2029}' || c == '\U{202F}' || c == '\U{205F}' || c == '\U{3000}'
  }

  /** The line boundaries recognised by `str.splitlines()`. */
  predicate IsLineBreak(c: char) {
    || '\n' <= c <= '\r'
    || '\U{1C}' <= c <= '\U{1E}'
    || c == '\U{85}' || c == '\U{2028}' || c == '\U{2029}'
  }

  /** A piece produced by `split()`: non-empty and free of whitespace. */
  predicate IsToken(t: string) {
    |t| > 0 && forall i :: 0 <= i < |t| ==> !IsSpace(t[i])
  }

  predicate NoLineBreak(s: string) {
    forall i :: 0 <= i < |s| ==> !IsLineBreak(s[i])
  }

  // ---------------------------------------------------------------- strip

  /** `s.lstrip()`: drops the leading whitespace and nothing else. */
  function TrimLeft(s: string): (r: string)
    ensures |r| <= |s|
    ensures forall i :: 0 <= i < |s| - |r| ==> IsSpace(s[i])
    ensures r == [] || !IsSpace(r[0])
  {
    if s != [] && IsSpace(s[0]) then TrimLeft(s[1..]) else s
  }

  /** `s.rstrip()`: drops the trailing whitespace and nothing else. */
  function TrimRight(s: string): (r: string)
    ensures |r| <= |s|
    ensures forall i :: |r| <= i < |s| ==> IsSpace(s[i])
    ensures r == [] || !IsSpace(r[|r| - 1])
  {
    if s != [] && IsSpace(s[|s| - 1]) then TrimRight(s[..|s| - 1]) else s
  }

  /** `lstrip` returns a suffix of its input. */
  lemma {:induction false} TrimLeftSuffix(s: string)
    ensures TrimLeft(s) == s[|s| - |TrimLeft(s)|..]
  {
    if s != [] && IsSpace(s[0]) {
      TrimLeftSuffix(s[1..]);
    }
  }

  /** `rstrip` returns a prefix of its input. */
  lemma {:induction false} TrimRightPrefix(s: string)
    ensures TrimRight(s) == s[..|TrimRight(s)|]
  {
    if s != [] && IsSpace(s[|s| - 1]) {
      TrimRightPrefix(s[..|s| - 1]);
    }
  }

  /** Neither starts nor ends with whitespace: what `strip` returns. */
  predicate IsStripped(s: string) {
    s == [] || (!IsSpace(s[0]) && !IsSpace(s[|s| - 1]))
  }

  /** `s.strip()`. */
  function Strip(s: string): (r: string)
    ensures |r| <= |s|
    ensures IsStripped(r)
  {
    TrimRightPrefix(TrimLeft(s));
    TrimRight(TrimLeft(s))
  }

  // ---------------------------------------------------------------- split()

  /** Length of the run of non-whitespace characters that starts `s`. */
  function TokenLen(s: string): (n: nat)
    ensures n <= |s|
    ensures forall i :: 0 <= i < n ==> !IsSpace(s[i])
    ensures n < |s| ==> IsSpace(s[n])
  {
    if s == [] || IsSpace(s[0]) then 0 else 1 + TokenLen(s[1..])
  }

  /** `s.split()`: the maximal runs of non-whitespace characters, in order. */
  function Split(s: string): (parts: seq<string>)
    ensures forall i :: 0 <= i < |parts| ==> IsToken(parts[i])
    decreases |s|
  {
    var t := TrimLeft(s);
    if t == [] then []
    else
      var n := TokenLen(t);
      [t[..n]] + Split(t[n..])
  }

  /** `sep.join(xs)`. */
  function Join(sep: string, xs: seq<string>): string {
    if xs == [] then []
    else if |xs| == 1 then xs[0]
    else xs[0] + sep + Join(sep, xs[1..])
  }

  // ---------------------------------------------------------------- splitlines()

  /** Index of the first line boundary in `s`, or `|s|` when there is none. */
  function LineEnd(s: string): (n: nat)
    ensures n <= |s|
    ensures forall i :: 0 <= i < n ==> !IsLineBreak(s[i])
    ensures n < |s| ==> IsLineBreak(s[n])
  {
    if s == [] || IsLineBreak(s[0]) then 0 else 1 + LineEnd(s[1..])
  }

  /**
   * `s.splitlines()`: the text between line boundaries, where "\r\n" counts as
   * one boundary and a boundary at the very end does not open an empty line.
   */
  function SplitLines(s: string): (lines: seq<string>)
    ensures forall i :: 0 <= i < |lines| ==> NoLineBreak(lines[i])
    decreases |s|
  {
    if s == [] then []
    else
      var n := LineEnd(s);
      if n == |s| then [s]
      else
        var width := if s[n] == '\r' && n + 1 < |s| && s[n + 1] == '\n' then 2 else 1;
        [s[..n]] + SplitLines(s[n + width..])
  }

  // ---------------------------------------------------------------- in, replace, split(c)[0]

  /** `sub in s`. */
  predicate Contains(s: string, sub: string)
    decreases |s|
  {
    sub <= s || (s != [] && Contains(s[1..], sub))
  }

  /** `s.replace(pat, rep)`: every non-overlapping occurrence, left to right. */
  function Replace(s: string, pat: string, rep: string): string
    requires pat != []
    decreases |s|
  {
    if |s| < |pat| then s
    else if pat <= s then rep + Replace(s[|pat|..], pat, rep)
    else [s[0]] + Replace(s[1..], pat, rep)
  }

  /** `s.split(sep)[0]`: everything before the first `sep`, or all of `s`. */
  function BeforeFirst(s: string, sep: char): (r: string)
    ensures r <= s && sep !in r
    ensures |r| < |s| ==> s[|r|] == sep
  {
    if s == [] || s[0] == sep then [] else [s[0]] + BeforeFirst(s[1..], sep)
  }

  // ---------------------------------------------------------------- int()

  predicate IsDigit(c: char) {
    '0' <= c <= '9'
  }

  predicate IsNumeral(s: string) {
    |s| > 0 && forall i :: 0 <= i < |s| ==> IsDigit(s[i])
  }

  /** The value of a string of decimal digits, most significant first. */
  function NumeralValue(s: string): nat
    requires forall i :: 0 <= i < |s| ==> IsDigit(s[i])
  {
    if s == [] then 0 else NumeralValue(s[..|s| - 1]) * 10 + DigitValue(s[|s| - 1])
  }

  function DigitValue(c: char): (d: nat)
    requires IsDigit(c)
    ensures d < 10
  {
    c as int - '0' as int
  }

  /**
   * `int(s)` for an optionally signed run of ASCII digits, and `None` for
   * anything else. Python accepts every text this accepts, with the same
   * value. It raises on every text this rejects, except texts with
   * surrounding whitespace, `_` between digits or non-ASCII digits.
   */
  function ParseInt(s: string): Option<int> {
    if |s| > 0 && (s[0] == '+' || s[0] == '-') && IsNumeral(s[1..]) then
      var v: int := NumeralValue(s[1..]);
      Some(if s[0] == '-' then -v else v)
    else if IsNumeral(s) then Some(NumeralValue(s))
    else None
  }

  /** `str(n)` for a natural number. */
  function Decimal(n: nat): (s: string)
    ensures IsNumeral(s)
  {
    var d := ['0' + (n % 10) as char];
    if n < 10 then d else Decimal(n / 10) + d
  }

  // ================================================================ lemmas

  lemma SliceAppend(a: string, b: string, n: nat)
    requires n <= |a|
    ensures (a + b)[..n] == a[..n] && (a + b)[n..] == a[n..] + b
  {
  }

  predicate AllSpace(w: string) {
    forall i :: 0 <= i < |w| ==> IsSpace(w[i])
  }

  /** Leading whitespace in front of `s` does not survive `lstrip`. */
  lemma {:induction false} TrimLeftSpaces(w: string, s: string)
    requires AllSpace(w)
    ensures TrimLeft(w + s) == TrimLeft(s)
    decreases |w|
  {
    if w == [] {
      assert w + s == s;
    } else {
      assert (w + s)[1..] == w[1..] + s;
      TrimLeftSpaces(w[1..], s);
    }
  }

  /** `lstrip` of a concatenation. */
  lemma {:induction false} TrimLeftAppend(x: string, w: string)
    ensures TrimLeft(x) != [] ==> TrimLeft(x + w) == TrimLeft(x) + w
    ensures TrimLeft(x) == [] ==> TrimLeft(x + w) == TrimLeft(w)
    decreases |x|
  {
    if x == [] {
      assert x + w == w;
    } else if IsSpace(x[0]) {
      assert (x + w)[1..] == x[1..] + w;
      TrimLeftAppend(x[1..], w);
    }
  }

  /** Trailing whitespace after `s` does not survive `rstrip`. */
  lemma {:induction false} TrimRightSpaces(s: string, w: string)
    requires AllSpace(w)
    ensures TrimRight(s + w) == TrimRight(s)
    decreases |w|
  {
    if w == [] {
      assert s + w == s;
    } else {
      assert (s + w)[..|s + w| - 1] == s + w[..|w| - 1];
      TrimRightSpaces(s, w[..|w| - 1]);
    }
  }

  /** Whitespace around a text is exactly what `strip` removes. */
  lemma StripPadded(u: string, s: string, v: string)
    requires AllSpace(u) && AllSpace(v)
    requires IsStripped(s)
    ensures Strip(u + s + v) == s
  {
    assert u + s + v == u + (s + v);
    TrimLeftSpaces(u, s + v);
    if s == [] {
      assert s + v == v;
      TrimLeftSpaces(v, []);
      assert v + [] == v;
    } else {
      assert TrimLeft(s + v) == s + v;
      TrimRightSpaces(s, v);
    }
  }

  /** A whitespace character in front of `s` does not change its tokens. */
  lemma SplitSpaceCons(c: char, s: string)
    requires IsSpace(c)
    ensures Split([c] + s) == Split(s)
  {
    assert ([c] + s)[1..] == s;
  }

  /** The run of non-whitespace characters at the start of `u` has length `k`. */
  lemma TokenLenExact(u: string, k: nat)
    requires k <= |u| && (forall i :: 0 <= i < k ==> !IsSpace(u[i]))
    requires k < |u| ==> IsSpace(u[k])
    ensures TokenLen(u) == k
  {
  }

  /** `split()` looks at its input only after the leading whitespace. */
  lemma SplitByTrimLeft(x: string)
    ensures Split(x) == Split(TrimLeft(x))
  {
    assert TrimLeft(TrimLeft(x)) == TrimLeft(x);
  }

  /** One step of `split()` on a text that starts with a token. */
  lemma SplitStep(u: string)
    requires u != [] && !IsSpace(u[0])
    ensures Split(u) == [u[..TokenLen(u)]] + Split(u[TokenLen(u)..])
  {
    assert TrimLeft(u) == u;
  }

  /** A token followed by whitespace (or nothing) is the first piece of `split()`. */
  lemma SplitTokenCons(t: string, s: string)
    requires IsToken(t)
    requires s == [] || IsSpace(s[0])
    ensures Split(t + s) == [t] + Split(s)
  {
    var u := t + s;
    assert forall i :: 0 <= i < |t| ==> !IsSpace(u[i]) by {
      forall i | 0 <= i < |t| ensures !IsSpace(u[i]) { assert u[i] == t[i]; }
    }
    assert |t| < |u| ==> IsSpace(u[|t|]) by {
      if |t| < |u| { assert u[|t|] == s[0]; }
    }
    TokenLenExact(u, |t|);
    SplitStep(u);
    assert u[..|t|] == t && u[|t|..] == s;
  }

  /** Whitespace appended after a text does not lengthen its first token. */
  lemma TokenLenSpaces(t: string, w: string)
    requires AllSpace(w)
    ensures TokenLen(t + w) == TokenLen(t)
  {
    var n, tw := TokenLen(t), t + w;
    assert forall i :: 0 <= i < n ==> !IsSpace(tw[i]) by {
      forall i | 0 <= i < n ensures !IsSpace(tw[i]) { assert tw[i] == t[i]; }
    }
    assert n < |tw| ==> IsSpace(tw[n]) by {
      if n < |t| { assert tw[n] == t[n]; } else if n < |tw| { assert tw[n] == w[0]; }
    }
    TokenLenExact(tw, n);
  }

  /** A text that is all whitespace has no tokens, however much whitespace follows. */
  lemma SplitBlank(x: string, w: string)
    requires AllSpace(w) && TrimLeft(x) == []
    ensures Split(x + w) == Split(x) == []
  {
    TrimLeftAppend(x, w);
    TrimLeftSpaces(w, []);
    assert w + [] == w;
  }

  /** `split()` ignores whitespace at the end of its input. */
  lemma {:induction false} SplitTrailingSpaces(x: string, w: string)
    requires AllSpace(w)
    ensures Split(x + w) == Split(x)
    decreases |x|
  {
    var t := TrimLeft(x);
    if t == [] {
      SplitBlank(x, w);
    } else {
      TrimLeftAppend(x, w);
      SplitByTrimLeft(x);
      SplitByTrimLeft(x + w);
      var n := TokenLen(t);
      var tw := t + w;
      TokenLenSpaces(t, w);
      SliceAppend(t, w, n);
      SplitTrailingSpaces(t[n..], w);
      calc {
        Split(x + w);
        Split(tw);
        { SplitStep(tw); }
        [t[..n]] + Split(t[n..] + w);
        [t[..n]] + Split(t[n..]);
        { SplitStep(t); }
        Split(t);
      }
    }
  }

  /** `s.strip().split() == s.split()`. */
  lemma SplitStrip(s: string)
    ensures Split(Strip(s)) == Split(s)
  {
    var l := TrimLeft(s);
    var r := TrimRight(l);
    TrimRightPrefix(l);
    assert l == r + l[|r|..];
    SplitTrailingSpaces(r, l[|r|..]);
    assert TrimLeft(l) == l;
  }

  /** A token on its own splits into itself. */
  lemma SplitToken(x: string)
    requires IsToken(x)
    ensures Split(x) == [x]
  {
    TokenLenExact(x, |x|);
    SplitStep(x);
    assert x[..|x|] == x;
    assert Split(x[|x|..]) == [];
  }

  lemma JoinCons(sep: string, xs: seq<string>)
    requires |xs| >= 2
    ensures Join(sep, xs) == xs[0] + (sep + Join(sep, xs[1..]))
  {
  }

  /** A join of texts of at most `w` characters has at most `w + |sep|` characters per text. */
  lemma {:induction false} JoinLength(sep: string, xs: seq<string>, w: nat)
    requires forall i :: 0 <= i < |xs| ==> |xs[i]| <= w
    ensures |Join(sep, xs)| <= (w + |sep|) * |xs|
  {
    if |xs| >= 2 {
      var tail := xs[1..];
      assert forall i :: 0 <= i < |tail| ==> tail[i] == xs[i + 1];
      JoinLength(sep, tail, w);
      JoinCons(sep, xs);
      assert (w + |sep|) * |xs| == (w + |sep|) * |tail| + (w + |sep|);
    }
  }

  lemma SplitTokenThenSpace(x: string, rest: string)
    requires IsToken(x)
    ensures Split(x + ([' '] + rest)) == [x] + Split(rest)
  {
    SplitTokenCons(x, [' '] + rest);
    SplitSpaceCons(' ', rest);
  }

  /** Tokens joined by single spaces make one stripped line. */
  lemma {:induction false} JoinTokens(xs: seq<string>)
    requires xs != []
    requires forall i :: 0 <= i < |xs| ==> IsToken(xs[i])
    ensures Join(" ", xs) != [] && IsStripped(Join(" ", xs)) && NoLineBreak(Join(" ", xs))
  {
    if |xs| >= 2 {
      var tail := xs[1..];
      assert forall i :: 0 <= i < |tail| ==> tail[i] == xs[i + 1];
      JoinTokens(tail);
      JoinCons(" ", xs);
      var head, rest := xs[0], " " + Join(" ", tail);
      assert Join(" ", xs) == head + rest;
      assert forall i :: 0 <= i < |head| ==> !IsLineBreak(head[i]) by {
        assert forall i :: 0 <= i < |head| ==> !IsSpace(head[i]);
      }
      assert forall i :: 0 <= i < |rest| ==> !IsLineBreak(rest[i]) by {
        assert forall i :: 1 <= i < |rest| ==> rest[i] == Join(" ", tail)[i - 1];
      }
      assert forall i :: 0 <= i < |head + rest| ==> (head + rest)[i] == if i < |head| then head[i] else rest[i - |head|];
    } else {
      assert forall i :: 0 <= i < |xs[0]| ==> !IsSpace(xs[0][i]);
    }
  }

  /** A token followed by whitespace splits into the token and the words after it. */
  lemma SplitTokenSpaces(t: string, w: string, s: string)
    requires IsToken(t) && AllSpace(w) && w != []
    ensures Split(t + (w + s)) == [t] + Split(s)
  {
    assert (w + s)[0] == w[0];
    SplitTokenCons(t, w + s);
    TrimLeftSpaces(w, s);
    SplitByTrimLeft(w + s);
    SplitByTrimLeft(s);
  }

  /** Two tokens separated by one space form a stripped text that splits back into them. */
  lemma TokenPair(key: string, value: string)
    requires IsToken(key) && IsToken(value)
    ensures IsStripped(key + " " + value) && Split(key + " " + value) == [key, value]
  {
    var body := key + " " + value;
    SplitTokenThenSpace(key, value);
    SplitToken(value);
    assert body == key + ([' '] + value);
    assert body[0] == key[0] && body[|body| - 1] == value[|value| - 1];
  }

  /** Texts without line breaks concatenate to one without line breaks. */
  lemma NoLineBreakConcat(a: string, b: string)
    requires NoLineBreak(a) && NoLineBreak(b)
    ensures NoLineBreak(a + b)
  {
    assert forall i :: 0 <= i < |a + b| ==> (a + b)[i] == if i < |a| then a[i] else b[i - |a|];
  }

  /** Splitting words joined by single spaces gives the words back. */
  lemma {:induction false} SplitJoin(xs: seq<string>)
    requires forall i :: 0 <= i < |xs| ==> IsToken(xs[i])
    ensures Split(Join(" ", xs)) == xs
  {
    if xs == [] {
    } else if |xs| == 1 {
      SplitToken(xs[0]);
    } else {
      var tail := xs[1..];
      assert forall i :: 0 <= i < |tail| ==> tail[i] == xs[i + 1];
      SplitJoin(tail);
      JoinCons(" ", xs);
      SplitTokenThenSpace(xs[0], Join(" ", tail));
      assert xs == [xs[0]] + tail;
    }
  }

  /** A line without boundaries is a single line. */
  lemma SplitLinesSingle(l: string)
    requires l != [] && NoLineBreak(l)
    ensures SplitLines(l) == [l]
  {
  }

  /** A line followed by "\n" is the first element of `splitlines()`. */
  lemma SplitLinesCons(l: string, s: string)
    requires NoLineBreak(l)
    ensures SplitLines(l + "\n" + s) == [l] + SplitLines(s)
  {
    var u := l + "\n" + s;
    assert u[|l|] == '\n';
    var n := LineEnd(u);
    assert forall i :: 0 <= i < |l| ==> u[i] == l[i];
    assert n == |l|;
    assert u[..n] == l && u[n + 1..] == s;
  }

  /** Splitting lines joined by "\n" gives the lines back, unless the last is empty. */
  lemma {:induction false} SplitLinesJoin(ls: seq<string>)
    requires forall i :: 0 <= i < |ls| ==> NoLineBreak(ls[i])
    requires ls != [] ==> ls[|ls| - 1] != []
    ensures SplitLines(Join("\n", ls)) == ls
  {
    if ls == [] {
    } else if |ls| == 1 {
      SplitLinesSingle(ls[0]);
    } else {
      var tail := ls[1..];
      forall i | 0 <= i < |tail|
        ensures NoLineBreak(tail[i])
      {
        assert tail[i] == ls[i + 1];
      }
      assert tail[|tail| - 1] == ls[|ls| - 1];
      SplitLinesJoin(tail);
      var rest := Join("\n", tail);
      JoinCons("\n", ls);
      assert ls[0] + ("\n" + rest) == ls[0] + "\n" + rest;
      SplitLinesCons(ls[0], rest);
      assert ls == [ls[0]] + ls[1..];
    }
  }

  /** A text lacking a character of `sub` does not contain `sub`. */
  lemma {:induction false} MissingCharNotContained(s: string, sub: string, c: char)
    requires c in sub && c !in s
    ensures !Contains(s, sub)
    decreases |s|
  {
    if s != [] {
      MissingCharNotContained(s[1..], sub, c);
    }
    var i :| 0 <= i < |sub| && sub[i] == c;
    assert i >= |s| || s[i] != sub[i];
  }

  /** `replace` leaves a text without the pattern unchanged. */
  lemma {:induction false} ReplaceAbsent(s: string, pat: string, rep: string)
    requires pat != [] && !Contains(s, pat)
    ensures Replace(s, pat, rep) == s
    decreases |s|
  {
    if |s| >= |pat| {
      ReplaceAbsent(s[1..], pat, rep);
    }
  }

  /** `replace` copies a character that cannot start the pattern. */
  lemma ReplaceSkip(c: char, s: string, pat: string, rep: string)
    requires pat != [] && c != pat[0]
    ensures Replace([c] + s, pat, rep) == [c] + Replace(s, pat, rep)
  {
    var cs := [c] + s;
    assert cs[1..] == s;
    if |cs| >= |pat| {
      assert !(pat <= cs) by {
        assert cs[0] != pat[0];
      }
    }
  }

  /** `replace` copies whitespace in front of a pattern that starts with a non-space. */
  lemma {:induction false} ReplaceSpaces(w: string, s: string, pat: string, rep: string)
    requires AllSpace(w) && pat != [] && !IsSpace(pat[0])
    ensures Replace(w + s, pat, rep) == w + Replace(s, pat, rep)
    decreases |w|
  {
    if w == [] {
      assert w + s == s;
    } else {
      assert w + s == [w[0]] + (w[1..] + s);
      ReplaceSpaces(w[1..], s, pat, rep);
      ReplaceSkip(w[0], w[1..] + s, pat, rep);
      assert w == [w[0]] + w[1..];
    }
  }

  /** `strip` leaves a stripped text as it is. */
  lemma StripStripped(s: string)
    requires IsStripped(s)
    ensures Strip(s) == s
  {
    StripPadded("", s, "");
    assert "" + s + "" == s;
  }

  /** `s.split(sep)[0]` is the text before the first occurrence of `sep`. */
  lemma BeforeFirstAt(s: string, sep: char, k: nat)
    requires k < |s| && s[k] == sep && sep !in s[..k]
    ensures BeforeFirst(s, sep) == s[..k]
  {
    var r := BeforeFirst(s, sep);
    assert forall i :: 0 <= i < |r| ==> r[i] == s[i];
    assert forall i :: 0 <= i < k ==> s[..k][i] == s[i];
  }

  /** `int(str(n)) == n`. */
  lemma {:induction false} DecimalRoundTrip(n: nat)
    ensures ParseInt(Decimal(n)) == Some(n)
    ensures NumeralValue(Decimal(n)) == n
  {
    var d := ['0' + (n % 10) as char];
    if n >= 10 {
      DecimalRoundTrip(n / 10);
      var s := Decimal(n);
      assert s[..|s| - 1] == Decimal(n / 10);
    }
    var s := Decimal(n);
    assert s[0] != '+' && s[0] != '-';
    assert IsNumeral(s);
    assert ParseInt(s) == Some(NumeralValue(s));
  }
}

=== FILE: rows.dfy ===
/**
 * The display logic of the rows in nwgcc/main.py: how each row turns what
 * its commands report into the text and the icon it shows, and how the CLI
 * label lays out the output of the user's own commands. Widgets, pixbufs and
 * timers are not modelled; `icons` is the ICONS dictionary of icon names to
 * icon files.
 */
module Rows {
  import opened Wrappers
  import opened PyStr
  import opened Tools

  /** The icon shown whenever the icon a row asks for is not in ICONS. */
  const IconMissing := "icon-missing"

  /** `ICONS[key] if key in ICONS else "icon-missing"`. */
  function Icon(icons: map<string, string>, key: string): (icon: string)
    ensures key in icons ==> icon == icons[key]
    ensures key !in icons ==> icon == IconMissing
  {
    if key in icons then icons[key] else IconMissing
  }

  /** What a text row shows: its label and its icon. */
  datatype Row = Row(name: string, icon: string)

  /** What a slider row shows: the level it is set to and its icon. */
  datatype Slider<T> = Slider(level: T, icon: string)

  // ---------------------------------------------------------------- BatteryRow

  /** The four charge tiers of the battery icon. */
  datatype Charge = Empty | Low | Good | Full

  /** The tier of a charge percentage, with the thresholds of `BatteryRow.get_values`. */
  function ChargeOf(percent: int): (c: Charge)
    ensures c == Full <==> percent > 95
    ensures c == Good <==> 50 < percent <= 95
    ensures c == Charge.Low <==> 20 < percent <= 50
    ensures c == Empty <==> percent <= 20
  {
    if percent > 95 then Full
    else if percent > 50 then Good
    else if percent > 20 then Charge.Low
    else Empty
  }

  /** The position of a tier, from empty up to full. */
  function ChargeRank(c: Charge): nat {
    match c
    case Empty => 0
    case Low => 1
    case Good => 2
    case Full => 3
  }

  /** A fuller battery never shows a lower tier. */
  lemma ChargeMonotonic(p: int, q: int)
    requires p <= q
    ensures ChargeRank(ChargeOf(p)) <= ChargeRank(ChargeOf(q))
  {
  }

  function ChargeKey(c: Charge): string {
    match c
    case Empty => "battery-empty"
    case Low => "battery-low"
    case Good => "battery-good"
    case Full => "battery-full"
  }

  /**
   * `BatteryRow.get_values`. `primaryFound` and `altFound` say whether
   * `is_command` finds the main and the alternative battery command;
   * `primary` and `alt` are what `get_battery` returns for each.
   */
  function BatteryValues(icons: map<string, string>, primaryFound: bool, altFound: bool,
                         primary: Battery, alt: Battery): (row: Row)
    ensures primaryFound ==> row.name == primary.msg
    ensures !primaryFound && altFound ==> row.name == alt.msg
    ensures !primaryFound && !altFound ==> row == Row("", Icon(icons, "battery-empty"))
    ensures var percent := if primaryFound then primary.percent else if altFound then alt.percent else 0;
      row.icon == Icon(icons, ChargeKey(ChargeOf(percent)))
  {
    var reading := if primaryFound then primary else if altFound then alt else NoBattery;
    var percVal := reading.percent;
    var icon :=
      if percVal > 95 then Icon(icons, "battery-full")
      else if percVal > 50 then Icon(icons, "battery-good")
      else if percVal > 20 then Icon(icons, "battery-low")
      else Icon(icons, "battery-empty");
    Row(reading.msg, icon)
  }

  /** While the main command is found, the alternative one makes no difference. */
  lemma BatteryPrefersPrimary(icons: map<string, string>, altFound: bool, altFound': bool,
                              primary: Battery, alt: Battery, alt': Battery)
    ensures BatteryValues(icons, true, altFound, primary, alt) == BatteryValues(icons, true, altFound', primary, alt')
  {
  }

  // ---------------------------------------------------------------- VolumeRow, BrightnessRow

  /** The three tiers the volume and brightness icons distinguish. */
  datatype Tier = Low | Medium | High

  /** The tier of a level 0..100, with the thresholds shared by both sliders. */
  function TierOf(level: int): (t: Tier)
    ensures t == High <==> level > 70
    ensures t == Medium <==> 30 < level <= 70
    ensures t == Tier.Low <==> level <= 30
  {
    if level > 70 then High else if level > 30 then Medium else Tier.Low
  }

  function TierRank(t: Tier): nat {
    match t
    case Low => 0
    case Medium => 1
    case High => 2
  }

  /** A higher level never shows a lower tier. */
  lemma TierMonotonic(p: int, q: int)
    requires p <= q
    ensures TierRank(TierOf(p)) <= TierRank(TierOf(q))
  {
  }

  function VolumeKey(t: Tier): string {
    match t
    case Low => "volume-low"
    case Medium => "volume-medium"
    case High => "volume-high"
  }

  function BrightnessKey(t: Tier): string {
    match t
    case Low => "brightness-low"
    case Medium => "brightness-medium"
    case High => "brightness-high"
  }

  /**
   * The lookups `VolumeRow.get_values` makes without raising: the muted
   * branch reads ICONS["volume-muted"] whenever "volume-low" is present.
   */
  predicate VolumeLookupOk(icons: map<string, string>, vol: Option<int>, switch: bool) {
    (!switch || vol.None?) && "volume-low" in icons ==> "volume-muted" in icons
  }

  /**
   * `VolumeRow.get_values` as written. `vol` is the level, `None` when it
   * cannot be read, and `switch` whether the channel is switched on. The
   * muted icon is guarded by the "volume-low" key, not by its own.
   */
  function VolumeValues(icons: map<string, string>, vol: Option<int>, switch: bool): (s: Slider<Option<int>>)
    requires VolumeLookupOk(icons, vol, switch)
    ensures s.level == vol
    ensures switch && vol.Some? ==> s.icon == Icon(icons, VolumeKey(TierOf(vol.value)))
    ensures !(switch && vol.Some?) ==> s.icon == (if "volume-low" in icons then icons["volume-muted"] else IconMissing)
  {
    var icon :=
      if switch && vol.Some? then
        if vol.value > 70 then Icon(icons, "volume-high")
        else if vol.value > 30 then Icon(icons, "volume-medium")
        else Icon(icons, "volume-low")
      else if "volume-low" in icons then icons["volume-muted"] else IconMissing;
    Slider(vol, icon)
  }

  /** `VolumeRow.get_values` with the muted icon guarded by its own key. */
  function VolumeValuesIntended(icons: map<string, string>, vol: Option<int>, switch: bool): (s: Slider<Option<int>>)
    ensures s.level == vol
    ensures switch && vol.Some? ==> s.icon == Icon(icons, VolumeKey(TierOf(vol.value)))
    ensures !(switch && vol.Some?) ==> s.icon == Icon(icons, "volume-muted")
  {
    var icon :=
      if switch && vol.Some? then
        if vol.value > 70 then Icon(icons, "volume-high")
        else if vol.value > 30 then Icon(icons, "volume-medium")
        else Icon(icons, "volume-low")
      else Icon(icons, "volume-muted");
    Slider(vol, icon)
  }

  /** Switched off, or without a level, the volume row shows the same icon at every level. */
  lemma MutedIgnoresLevel(icons: map<string, string>, vol: Option<int>, vol': Option<int>, switch: bool, switch': bool)
    requires !switch || vol.None?
    requires !switch' || vol'.None?
    ensures VolumeValuesIntended(icons, vol, switch).icon == VolumeValuesIntended(icons, vol', switch').icon
    ensures VolumeLookupOk(icons, vol, switch) && VolumeLookupOk(icons, vol', switch') ==>
      VolumeValues(icons, vol, switch).icon == VolumeValues(icons, vol', switch').icon
  {
  }

  /** The code as written agrees with the intended one except when only "volume-muted" is present. */
  lemma VolumeAsWrittenAgrees(icons: map<string, string>, vol: Option<int>, switch: bool)
    requires VolumeLookupOk(icons, vol, switch)
    requires "volume-muted" in icons ==> "volume-low" in icons
    ensures VolumeValues(icons, vol, switch) == VolumeValuesIntended(icons, vol, switch)
  {
  }

  /** With only the muted icon installed, the muted row shows "icon-missing" instead of it. */
  lemma VolumeMutedIconMissing()
    ensures var icons := map["volume-muted" := "muted.svg"];
      && VolumeLookupOk(icons, None, true)
      && VolumeValues(icons, None, true).icon == IconMissing
      && VolumeValuesIntended(icons, None, true).icon == "muted.svg"
  {
    var icons := map["volume-muted" := "muted.svg"];
    assert "volume-low" !in icons;
  }

  /** With "volume-low" but no "volume-muted", muting raises a KeyError. */
  lemma VolumeMutedLookupFails()
    ensures !VolumeLookupOk(map["volume-low" := "low.svg"], Some(50), false)
  {
  }

  /** `BrightnessRow.get_values`, for a brightness that could be read. */
  function BrightnessValues(icons: map<string, string>, bri: int): (s: Slider<int>)
    ensures s.level == bri
    ensures s.icon == Icon(icons, BrightnessKey(TierOf(bri)))
  {
    var icon :=
      if bri > 70 then Icon(icons, "brightness-high")
      else if bri > 30 then Icon(icons, "brightness-medium")
      else Icon(icons, "brightness-low");
    Slider(bri, icon)
  }

  // ---------------------------------------------------------------- WifiRow, BluetoothRow

  /**
   * `WifiRow.get_values`. `stdout` is what the SSID query printed, `None`
   * when running it raised.
   */
  function WifiValues(icons: map<string, string>, stdout: Option<string>): (row: Row)
    ensures stdout.Some? && Split(stdout.value) != [] ==>
      && row.icon == Icon(icons, "wifi-on")
      && row.name == Strip(stdout.value)
      && IsStripped(row.name) && Split(row.name) == Split(stdout.value)
    ensures stdout.None? || Split(stdout.value) == [] ==>
      row == Row("disconnected", Icon(icons, "wifi-off"))
  {
    var ssid := if stdout.Some? then Cmd2String(stdout.value) else "";
    OutputEmptyWithoutWords(stdout);
    if ssid != "" then Cmd2StringWords(stdout.value); Row(ssid, Icon(icons, "wifi-on"))
    else Row("disconnected", Icon(icons, "wifi-off"))
  }

  /**
   * `BluetoothRow.get_values`. `status` and `name` are what the status and
   * the name queries printed; both raise on fewer than two words.
   */
  function BluetoothValues(icons: map<string, string>, status: string, name: string): (row: Row)
    requires |Split(status)| >= 2
    requires Split(status)[1] == "yes" ==> |Split(name)| >= 2
    ensures Split(status)[1] == "yes" ==> row == Row(Split(name)[1], Icon(icons, "bt-on"))
    ensures Split(status)[1] != "yes" ==> row == Row("disabled", Icon(icons, "bt-off"))
  {
    if BtOn(status) then Row(BtName(name), Icon(icons, "bt-on"))
    else Row("disabled", Icon(icons, "bt-off"))
  }

  // ---------------------------------------------------------------- CliLabel

  /** The longest command output the label shows uncut. */
  const MaxWidth := 38

  /** One command's output as the label shows it: cut to 38 characters and marked with "…". */
  function Piece(out: string): (piece: string)
    ensures |piece| <= MaxWidth + 1
    ensures |out| <= MaxWidth ==> piece == out
    ensures |out| > MaxWidth ==> |piece| == MaxWidth + 1 && piece[..MaxWidth] == out[..MaxWidth] && piece[MaxWidth] == '…'
  {
    if |out| > MaxWidth then out[..MaxWidth] + "…" else out
  }

  /** Cutting an output introduces no line break and empties only the empty output. */
  lemma PieceKeepsLines(out: string)
    ensures NoLineBreak(out) ==> NoLineBreak(Piece(out))
    ensures Piece(out) == [] <==> out == []
  {
  }

  /** The stripped outputs of the commands, in order. */
  function Outputs(stdouts: seq<string>): seq<string> {
    seq(|stdouts|, i requires 0 <= i < |stdouts| => Cmd2String(stdouts[i]))
  }

  /** The pieces of the label, one per output, in order. */
  function Pieces(outs: seq<string>): seq<string> {
    seq(|outs|, i requires 0 <= i < |outs| => Piece(outs[i]))
  }

  /** The label's text: the pieces separated by line feeds. */
  function LabelText(stdouts: seq<string>): (text: string)
    ensures stdouts == [] ==> text == []
    ensures |text| <= (MaxWidth + 2) * |stdouts|
  {
    var pieces := Pieces(Outputs(stdouts));
    assert forall i :: 0 <= i < |pieces| ==> |pieces[i]| <= MaxWidth + 1;
    JoinLength("\n", pieces, MaxWidth + 1);
    Join("\n", pieces)
  }

  /** Joining one more piece adds the separator and the piece. */
  lemma {:induction false} JoinSnoc(sep: string, xs: seq<string>, x: string)
    ensures Join(sep, xs + [x]) == if xs == [] then x else Join(sep, xs) + sep + x
  {
    if |xs| >= 2 {
      assert (xs + [x])[1..] == xs[1..] + [x];
      JoinSnoc(sep, xs[1..], x);
    } else if |xs| == 1 {
      assert (xs + [x])[1..] == [x];
    }
  }

  /** The text after `i` turns of the loop in `CliLabel.update`. */
  ghost function PartialText(pieces: seq<string>, i: nat): string
    requires i <= |pieces|
  {
    Join("\n", pieces[..i]) + (if 0 < i < |pieces| then "\n" else "")
  }

  /** A turn of the loop adds the next piece and, unless it is the last, a line feed. */
  lemma PartialTextStep(pieces: seq<string>, i: nat)
    requires i < |pieces|
    ensures PartialText(pieces, i + 1) == PartialText(pieces, i) + pieces[i] + (if i < |pieces| - 1 then "\n" else "")
  {
    assert pieces[..i + 1] == pieces[..i] + [pieces[i]];
    JoinSnoc("\n", pieces[..i], pieces[i]);
  }

  /** After the last turn the text is the whole label. */
  lemma PartialTextDone(pieces: seq<string>)
    ensures PartialText(pieces, |pieces|) == Join("\n", pieces)
  {
    assert pieces[..|pieces|] == pieces;
  }

  /** Outputs on one line give pieces on one line; a non-empty last output gives a non-empty last piece. */
  lemma PiecesKeepLines(outs: seq<string>)
    requires forall i :: 0 <= i < |outs| ==> NoLineBreak(outs[i])
    requires outs != [] ==> outs[|outs| - 1] != []
    ensures var pieces := Pieces(outs);
      && (forall i :: 0 <= i < |pieces| ==> NoLineBreak(pieces[i]))
      && (pieces != [] ==> pieces[|pieces| - 1] != [])
  {
    var pieces := Pieces(outs);
    forall i | 0 <= i < |pieces|
      ensures NoLineBreak(pieces[i])
    {
      PieceKeepsLines(outs[i]);
    }
    if outs != [] {
      PieceKeepsLines(outs[|outs| - 1]);
    }
  }

  /** The last output is empty exactly when the last command printed no words. */
  lemma LastOutputEmpty(stdouts: seq<string>)
    requires stdouts != []
    ensures Outputs(stdouts)[|stdouts| - 1] == [] <==> Split(stdouts[|stdouts| - 1]) == []
  {
    OutputEmptyWithoutWords(Some(stdouts[|stdouts| - 1]));
  }

  /**
   * When no output spans lines and the last one is not empty, the label has
   * exactly one line per command: the separators are the only line breaks
   * and there is none at the end.
   */
  lemma LabelLines(stdouts: seq<string>)
    requires forall i :: 0 <= i < |stdouts| ==> NoLineBreak(Cmd2String(stdouts[i]))
    requires stdouts != [] ==> Split(stdouts[|stdouts| - 1]) != []
    ensures SplitLines(LabelText(stdouts)) == Pieces(Outputs(stdouts))
    ensures |SplitLines(LabelText(stdouts))| == |stdouts|
  {
    var outs := Outputs(stdouts);
    if stdouts != [] {
      LastOutputEmpty(stdouts);
    }
    PiecesKeepLines(outs);
    SplitLinesJoin(Pieces(outs));
  }

  /** The CLI label of the control center. */
  class CliLabel {
    /** The text the label shows. */
    var text: string

    /** `CliLabel.__init__`: the label starts out showing the commands' output. */
    constructor(stdouts: seq<string>)
      ensures text == LabelText(stdouts)
    {
      text := "";
      new;
      Update(stdouts);
    }

    /**
     * `CliLabel.update`. `stdouts` is what each command of the CLI command
     * list printed, in list order.
     */
    method Update(stdouts: seq<string>)
      modifies this
      ensures text == LabelText(stdouts)
    {
      ghost var outs := Outputs(stdouts);
      ghost var pieces := Pieces(outs);
      var output := "";
      var i := 0;
      while i < |stdouts|
        invariant 0 <= i <= |stdouts|
        invariant output == PartialText(pieces, i)
      {
        var o := Cmd2String(stdouts[i]);
        assert o == outs[i];
        if |o| > MaxWidth {
          o := o[..MaxWidth] + "…";
        }
        assert o == Piece(outs[i]);
        assert o == pieces[i];
        PartialTextStep(pieces, i);
        output := output + o;
        if i < |stdouts| - 1 {
          output := output + "\n";
        }
        i := i + 1;
      }
      PartialTextDone(pieces);
      text := output;
    }
  }
}

=== FILE: tools.dfy ===
/**
 * The parsing half of nwgcc/tools.py. Running a command is not modelled:
 * whatever a command printed on standard output is a parameter, `None` where
 * the source catches the failure of the command, and the availability of a
 * command is an oracle or a boolean supplied by the caller.
 */
module Tools {
  import opened Wrappers
  import opened PyStr

  /** `cmd2string`: what the command printed, stripped of surrounding whitespace. */
  function Cmd2String(stdout: string): (out: string)
    ensures IsStripped(out)
  {
    Strip(stdout)
  }

  /** Stripping keeps every word of the output. */
  lemma Cmd2StringWords(stdout: string)
    ensures Split(Cmd2String(stdout)) == Split(stdout)
  {
    SplitStrip(stdout);
  }

  // ---------------------------------------------------------------- is_command, check_all_commands

  /** `cmd.split()[0]`: the program name of a command line, arguments dropped. */
  function BaseCommand(cmd: string): (name: string)
    requires Split(cmd) != []
    ensures IsToken(name)
  {
    Split(cmd)[0]
  }

  /**
   * The program name is the first run of non-whitespace characters of the
   * command line: leading whitespace skipped, ended by whitespace or the end.
   */
  lemma BaseCommandIsFirstWord(cmd: string)
    requires Split(cmd) != []
    ensures var name := BaseCommand(cmd);
      && IsToken(name)
      && name <= TrimLeft(cmd)
      && (|name| == |TrimLeft(cmd)| || IsSpace(TrimLeft(cmd)[|name|]))
  {
    SplitByTrimLeft(cmd);
    SplitStep(TrimLeft(cmd));
  }

  /** A program name followed by arguments has that program name. */
  lemma BaseCommandOfCommandLine(name: string, args: string)
    requires IsToken(name)
    ensures Split(name + " " + args) != []
    ensures BaseCommand(name + " " + args) == name
  {
    assert name + " " + args == name + ([' '] + args);
    SplitTokenThenSpace(name, args);
  }

  /**
   * `is_command`: `command -v` is asked about the program name only; `lookup`
   * gives its output, `None` when it exits with an error. An empty answer makes
   * the source return `None`, which its callers read as false.
   */
  function IsCommand(cmd: string, lookup: string -> Option<string>): (found: bool)
    requires Split(cmd) != []
    ensures found <==> lookup(BaseCommand(cmd)).Some? && Split(lookup(BaseCommand(cmd)).value) != []
  {
    var answer := lookup(BaseCommand(cmd));
    OutputEmptyWithoutWords(answer);
    answer.Some? && Cmd2String(answer.value) != []
  }

  /** The arguments of a command line never change whether it counts as available. */
  lemma IsCommandIgnoresArguments(name: string, args: string, lookup: string -> Option<string>)
    requires IsToken(name)
    ensures Split(name + " " + args) != [] && Split(name) != []
    ensures IsCommand(name + " " + args, lookup) == IsCommand(name, lookup)
  {
    BaseCommandOfCommandLine(name, args);
    SplitToken(name);
  }

  /** The program names of a list of command lines, in order. */
  function BaseCommands(cmds: seq<string>): (names: seq<string>)
    requires forall i :: 0 <= i < |cmds| ==> Split(cmds[i]) != []
    ensures |names| == |cmds|
    ensures forall i :: 0 <= i < |cmds| ==> names[i] == BaseCommand(cmds[i])
  {
    if cmds == [] then [] else [BaseCommand(cmds[0])] + BaseCommands(cmds[1..])
  }

  /** Position of the first occurrence of `x` in `s`. */
  function FirstIndex(s: seq<string>, x: string): (k: nat)
    requires x in s
    ensures k < |s| && s[k] == x
    ensures forall j :: 0 <= j < k ==> s[j] != x
  {
    if s[0] == x then 0
    else
      1 + FirstIndex(s[1..], x)
  }

  lemma FirstIndexAt(s: seq<string>, i: nat)
    requires i < |s| && s[i] !in s[..i]
    ensures FirstIndex(s, s[i]) == i
  {
    assert forall j :: 0 <= j < i ==> s[..i][j] == s[j];
  }

  /**
   * `commands` holds the distinct names of `names[..n]`, each once, in the
   * order in which they first appear.
   */
  ghost predicate FirstAppearances(names: seq<string>, n: nat, commands: seq<string>)
    requires n <= |names|
  {
    && (forall i, j :: 0 <= i < j < |commands| ==> commands[i] != commands[j])
    && (forall x :: x in commands <==> x in names[..n])
    && (forall i :: 0 <= i < |commands| ==> commands[i] in names && FirstIndex(names, commands[i]) < n)
    && (forall i, j :: 0 <= i < j < |commands| ==> FirstIndex(names, commands[i]) < FirstIndex(names, commands[j]))
  }

  /** Looking at one more name keeps the first appearances, adding the name if it is new. */
  lemma FirstAppearancesStep(names: seq<string>, n: nat, commands: seq<string>)
    requires n < |names| && FirstAppearances(names, n, commands)
    ensures FirstAppearances(names, n + 1, if names[n] in commands then commands else commands + [names[n]])
  {
    var x := names[n];
    assert names[..n + 1] == names[..n] + [x];
    if x in commands {
      assert forall y :: y in commands <==> y in names[..n + 1];
    } else {
      FirstIndexAt(names, n);
      var next := commands + [x];
      assert forall i :: 0 <= i < |commands| ==> next[i] == commands[i];
      assert forall i, j :: 0 <= i < j < |next| ==> next[i] != next[j];
      assert forall y :: y in next <==> y in names[..n + 1];
      assert forall i :: 0 <= i < |next| ==> next[i] in names && FirstIndex(names, next[i]) < n + 1;
    }
  }

  /**
   * `check_all_commands`, the list it probes: the program name of every
   * configured command, each once, in the order of first appearance.
   */
  method CheckAllCommands(values: seq<string>) returns (commands: seq<string>)
    requires forall i :: 0 <= i < |values| ==> Split(values[i]) != []
    ensures forall i, j :: 0 <= i < j < |commands| ==> commands[i] != commands[j]
    ensures forall x :: x in commands <==> x in BaseCommands(values)
    ensures forall i, j :: 0 <= i < j < |commands| ==>
      FirstIndex(BaseCommands(values), commands[i]) < FirstIndex(BaseCommands(values), commands[j])
  {
    ghost var names := BaseCommands(values);
    commands := [];
    var n := 0;
    while n < |values|
      invariant n <= |values|
      invariant FirstAppearances(names, n, commands)
    {
      var command := BaseCommand(values[n]);
      FirstAppearancesStep(names, n, commands);
      if command !in commands {
        commands := commands + [command];
      }
      n := n + 1;
    }
    assert names[..n] == names;
  }

  // ---------------------------------------------------------------- parse_cli_commands

  /** A stripped line that `parse_cli_commands` keeps: not empty, not a comment. */
  predicate IsCliCommand(line: string) {
    line != [] && !("#" <= line) && !("//" <= line)
  }

  /** The commands a list of file lines declares, in file order. */
  function CliCommands(fileLines: seq<string>): (cmds: seq<string>)
    ensures forall i :: 0 <= i < |cmds| ==> IsCliCommand(cmds[i]) && IsStripped(cmds[i])
  {
    if fileLines == [] then []
    else
      var line := Strip(fileLines[0]);
      (if IsCliCommand(line) then [line] else []) + CliCommands(fileLines[1..])
  }

  /** The lines of two consecutive parts of a file contribute independently. */
  lemma {:induction false} CliCommandsAppend(a: seq<string>, b: seq<string>)
    ensures CliCommands(a + b) == CliCommands(a) + CliCommands(b)
  {
    if a == [] {
      assert a + b == b;
    } else {
      assert (a + b)[1..] == a[1..] + b;
      CliCommandsAppend(a[1..], b);
    }
  }

  lemma CliCommandsSingle(line: string)
    ensures CliCommands([line]) == if IsCliCommand(Strip(line)) then [Strip(line)] else []
  {
    assert [line][1..] == [];
  }

  /** Reading one more line of the file adds at most that line, stripped. */
  lemma CliCommandsStep(fileLines: seq<string>, k: nat)
    requires k < |fileLines|
    ensures CliCommands(fileLines[..k + 1]) ==
      CliCommands(fileLines[..k]) + (if IsCliCommand(Strip(fileLines[k])) then [Strip(fileLines[k])] else [])
  {
    assert fileLines[..k + 1] == fileLines[..k] + [fileLines[k]];
    CliCommandsAppend(fileLines[..k], [fileLines[k]]);
    CliCommandsSingle(fileLines[k]);
  }

  /** Exactly the stripped lines that are commands are kept. */
  lemma {:induction false} CliCommandsMembers(fileLines: seq<string>, x: string)
    ensures x in CliCommands(fileLines) <==>
      IsCliCommand(x) && exists i :: 0 <= i < |fileLines| && Strip(fileLines[i]) == x
  {
    if fileLines != [] {
      var tail := fileLines[1..];
      CliCommandsMembers(tail, x);
      var head := Strip(fileLines[0]);
      assert CliCommands(fileLines) == (if IsCliCommand(head) then [head] else []) + CliCommands(tail);
      if exists i :: 0 <= i < |fileLines| && Strip(fileLines[i]) == x {
        var i :| 0 <= i < |fileLines| && Strip(fileLines[i]) == x;
        if i > 0 {
          assert Strip(tail[i - 1]) == x;
        }
      }
      if exists i :: 0 <= i < |tail| && Strip(tail[i]) == x {
        var i :| 0 <= i < |tail| && Strip(tail[i]) == x;
        assert Strip(fileLines[i + 1]) == x;
      }
    }
  }

  /** `parse_cli_commands`, given the lines of the file. */
  method ParseCliCommands(fileLines: seq<string>) returns (lines: seq<string>)
    ensures lines == CliCommands(fileLines)
  {
    lines := [];
    var k := 0;
    while k < |fileLines|
      invariant 0 <= k <= |fileLines|
      invariant lines == CliCommands(fileLines[..k])
    {
      var line := Strip(fileLines[k]);
      CliCommandsStep(fileLines, k);
      ghost var before := lines;
      if line != [] && !("#" <= line) && !("//" <= line) {
        lines := lines + [line];
      }
      assert lines == before + (if IsCliCommand(line) then [line] else []);
      k := k + 1;
    }
    assert fileLines[..k] == fileLines;
  }

  // ---------------------------------------------------------------- set_volume

  /**
   * `int(percent * max_vol / 100)` in `set_volume`: the raw mixer value for a
   * percentage of the channel's maximum, truncated toward zero as `int()`
   * truncates, computed on exact integers.
   */
  function RawVolume(percent: int, maxVol: int): (raw: int)
    ensures 0 <= percent * maxVol ==> 0 <= raw * 100 <= percent * maxVol < raw * 100 + 100
    ensures percent * maxVol < 0 ==> raw * 100 - 100 < percent * maxVol <= raw * 100 <= 0
  {
    var product := percent * maxVol;
    if product >= 0 then product / 100 else -((-product) / 100)
  }

  /** A slider position 0..100 maps into the channel's range, both ends exactly. */
  lemma RawVolumeRange(percent: int, maxVol: nat)
    requires 0 <= percent <= 100
    ensures 0 <= RawVolume(percent, maxVol) <= maxVol
    ensures RawVolume(0, maxVol) == 0 && RawVolume(100, maxVol) == maxVol
  {
    assert percent * maxVol <= 100 * maxVol;
  }

  /** Moving the slider up never lowers the raw volume. */
  lemma RawVolumeMonotonic(p: int, q: int, maxVol: nat)
    requires 0 <= p <= q
    ensures RawVolume(p, maxVol) <= RawVolume(q, maxVol)
  {
    assert p * maxVol <= q * maxVol;
  }

  // ---------------------------------------------------------------- bt_on, bt_name

  /** `bt_on`: the second word of the status query's output is exactly "yes". */
  function BtOn(stdout: string): (on: bool)
    requires |Split(stdout)| >= 2
    ensures on <==> Split(stdout)[1] == "yes"
  {
    Cmd2StringWords(stdout);
    Split(Cmd2String(stdout))[1] == "yes"
  }

  /** `bt_name`: the second word of the name query's output. */
  function BtName(stdout: string): (name: string)
    requires |Split(stdout)| >= 2
    ensures IsToken(name) && name == Split(stdout)[1]
  {
    Cmd2StringWords(stdout);
    Split(Cmd2String(stdout))[1]
  }

  // ---------------------------------------------------------------- get_battery

  /** What `get_battery` returns: the summary text and the percentage. */
  datatype Battery = Battery(msg: string, percent: int)

  const NoBattery := Battery("", 0)

  /** `int(token.split("%")[0])` succeeds. */
  predicate IsPercent(token: string) {
    ParseInt(BeforeFirst(token, '%')).Some?
  }

  /** `int(token.split("%")[0])`: the number in front of the percent sign. */
  function PercentValue(token: string): (v: int)
    requires IsPercent(token)
    ensures ParseInt(BeforeFirst(token, '%')) == Some(v)
    ensures v < 0 ==> token[0] == '-'
  {
    ParseInt(BeforeFirst(token, '%')).value
  }

  /** "N%" reads back as N. */
  lemma PercentValueOfDecimal(n: nat)
    ensures IsPercent(Decimal(n) + "%") && PercentValue(Decimal(n) + "%") == n
  {
    var d := Decimal(n);
    assert (d + "%")[..|d|] == d;
    assert '%' !in d by {
      assert forall i :: 0 <= i < |d| ==> IsDigit(d[i]);
    }
    BeforeFirstAt(d + "%", '%', |d|);
    DecimalRoundTrip(n);
  }

  /**
   * The words of one line of `upower -i` output as the loop in `get_battery`
   * splits them: stripped, "time to empty" turned into one word, split.
   */
  function UpowerWords(line: string): (words: seq<string>)
    ensures forall i :: 0 <= i < |words| ==> IsToken(words[i])
  {
    var l := Strip(line);
    var l := if Contains(l, "time to empty") then Replace(l, "time to empty", "time_to_empty") else l;
    Split(l)
  }

  /** The words of every line, in order. */
  function WordsOfLines(lines: seq<string>): seq<seq<string>> {
    seq(|lines|, i requires 0 <= i < |lines| => UpowerWords(lines[i]))
  }

  /** The test `get_battery` applies to a line's words: the first word contains `key`. */
  predicate HasKey(words: seq<string>, key: string) {
    |words| > 0 && Contains(words[0], key)
  }

  /** The words of a line the loop in `get_battery` gets through without raising. */
  predicate WordsOk(words: seq<string>) {
    && |words| > 0
    && (Contains(words[0], "percentage:") ==> |words| > 1 && IsPercent(words[1]))
    && (Contains(words[0], "state:") ==> |words| > 1)
  }

  predicate AllWordsOk(parts: seq<seq<string>>) {
    forall i :: 0 <= i < |parts| ==> WordsOk(parts[i])
  }

  /** The index of the last element that satisfies `test`, or -1 when none does. */
  function LastWhere<T>(xs: seq<T>, test: T -> bool): (k: int)
    ensures -1 <= k < |xs|
    ensures k >= 0 ==> test(xs[k])
    ensures forall j :: k < j < |xs| ==> !test(xs[j])
  {
    if xs == [] then -1
    else if test(xs[|xs| - 1]) then |xs| - 1
    else LastWhere(xs[..|xs| - 1], test)
  }

  /** The index of the last line whose words carry `key`, or -1 when none does. */
  function LastWithKey(parts: seq<seq<string>>, key: string): (k: int)
    ensures -1 <= k < |parts|
    ensures k >= 0 ==> HasKey(parts[k], key)
    ensures forall j :: k < j < |parts| ==> !HasKey(parts[j], key)
  {
    LastWhere(parts, words => HasKey(words, key))
  }

  /** A line appended at the end is the last one carrying its keys. */
  lemma LastWithKeySnoc(parts: seq<seq<string>>, words: seq<string>, key: string)
    ensures LastWithKey(parts + [words], key)
         == if HasKey(words, key) then |parts| else LastWithKey(parts, key)
  {
    var all := parts + [words];
    assert all[..|all| - 1] == parts;
  }

  // The loop of `get_battery` keeps, for each field, the value from the most
  // recent line whose first word carries the field's key. The four functions
  // below are that loop read from the back, on the words of each line; the
  // lemmas after them show each is the value on the last line carrying the
  // key, the one `LastWithKey` finds.

  /** `percentage` after the loop: the second word of the last `percentage:` line. */
  function Percentage(parts: seq<seq<string>>): string
    requires AllWordsOk(parts)
  {
    if parts == [] then ""
    else
      var words := parts[|parts| - 1];
      if Contains(words[0], "percentage:") then words[1] else Percentage(parts[..|parts| - 1])
  }

  /** `perc_val` after the loop: the number in the last `percentage:` line, 0 without one. */
  function PercentageValue(parts: seq<seq<string>>): int
    requires AllWordsOk(parts)
  {
    if parts == [] then 0
    else
      var words := parts[|parts| - 1];
      if Contains(words[0], "percentage:") then PercentValue(words[1]) else PercentageValue(parts[..|parts| - 1])
  }

  /** `state` after the loop: the second word of the last `state:` line. */
  function State(parts: seq<seq<string>>): string
    requires AllWordsOk(parts)
  {
    if parts == [] then ""
    else
      var words := parts[|parts| - 1];
      if Contains(words[0], "state:") then words[1] else State(parts[..|parts| - 1])
  }

  /** `time` after the loop: the words after the key of the last `time_to_empty:` line, single-spaced. */
  function TimeToEmpty(parts: seq<seq<string>>): string
    requires AllWordsOk(parts)
  {
    if parts == [] then ""
    else
      var words := parts[|parts| - 1];
      if Contains(words[0], "time_to_empty:") then Join(" ", words[1..]) else TimeToEmpty(parts[..|parts| - 1])
  }

  /** `percentage` and `perc_val` come from the last `percentage:` line, and are "" and 0 without one. */
  lemma {:induction false} PercentageLast(parts: seq<seq<string>>)
    requires AllWordsOk(parts)
    ensures var k := LastWithKey(parts, "percentage:");
      && Percentage(parts) == (if k < 0 then "" else parts[k][1])
      && PercentageValue(parts) == (if k < 0 then 0 else PercentValue(parts[k][1]))
  {
    if parts != [] {
      var prefix, last := parts[..|parts| - 1], parts[|parts| - 1];
      assert parts == prefix + [last];
      PercentageLast(prefix);
      LastWithKeySnoc(prefix, last, "percentage:");
    }
  }

  /** `state` comes from the last `state:` line, and is "" without one. */
  lemma {:induction false} StateLast(parts: seq<seq<string>>)
    requires AllWordsOk(parts)
    ensures var k := LastWithKey(parts, "state:");
      State(parts) == (if k < 0 then "" else parts[k][1])
  {
    if parts != [] {
      var prefix, last := parts[..|parts| - 1], parts[|parts| - 1];
      assert parts == prefix + [last];
      StateLast(prefix);
      LastWithKeySnoc(prefix, last, "state:");
    }
  }

  /** `time` comes from the last `time_to_empty:` line, and is "" without one. */
  lemma {:induction false} TimeToEmptyLast(parts: seq<seq<string>>)
    requires AllWordsOk(parts)
    ensures var k := LastWithKey(parts, "time_to_empty:");
      TimeToEmpty(parts) == (if k < 0 then "" else Join(" ", parts[k][1..]))
  {
    if parts != [] {
      var prefix, last := parts[..|parts| - 1], parts[|parts| - 1];
      assert parts == prefix + [last];
      TimeToEmptyLast(prefix);
      LastWithKeySnoc(prefix, last, "time_to_empty:");
    }
  }

  /**
   * One more turn of the loop: a field takes the value on line `i` when the
   * line's first word carries its key, and keeps its value otherwise.
   */
  lemma FieldsNext(parts: seq<seq<string>>, i: nat)
    requires i < |parts| && AllWordsOk(parts)
    ensures AllWordsOk(parts[..i + 1]) && WordsOk(parts[i])
    ensures var words, prefix, next := parts[i], parts[..i], parts[..i + 1];
      && Percentage(next) == (if Contains(words[0], "percentage:") then words[1] else Percentage(prefix))
      && PercentageValue(next) == (if Contains(words[0], "percentage:") then PercentValue(words[1]) else PercentageValue(prefix))
      && State(next) == (if Contains(words[0], "state:") then words[1] else State(prefix))
      && TimeToEmpty(next) == (if Contains(words[0], "time_to_empty:") then Join(" ", words[1..]) else TimeToEmpty(prefix))
  {
    var next := parts[..i + 1];
    assert next[..i] == parts[..i] && next[i] == parts[i];
  }

  /** The lines `get_battery` reads from `upower`: none when the command failed. */
  function UpowerLines(stdout: Option<string>): seq<string> {
    if stdout.Some? then SplitLines(Cmd2String(stdout.value)) else []
  }

  /** The line `get_battery` reads from `acpi`: its first, or "" when there is none. */
  function AcpiLine(stdout: Option<string>): string {
    if stdout.Some? && SplitLines(Cmd2String(stdout.value)) != [] then SplitLines(Cmd2String(stdout.value))[0] else ""
  }

  /** An `acpi` line `get_battery` gets through without raising. */
  predicate AcpiLineOk(line: string) {
    line != "" ==> |Split(line)| > 3 && IsPercent(Split(line)[3])
  }

  /** `get_battery` returns rather than raises for this program and output. */
  predicate BatteryOk(program: string, stdout: Option<string>) {
    && (program == "upower" ==> AllWordsOk(WordsOfLines(UpowerLines(stdout))))
    && (program == "acpi" ==> AcpiLineOk(AcpiLine(stdout)))
  }

  /**
   * What `get_battery` returns, stated field by field: for `upower`, the three
   * fields joined by single spaces, each from the last line that carries it;
   * for `acpi`, the words of the first line from the third on and the number
   * in the fourth; for any other program, or no output, nothing.
   * `program` is the program name of the battery command.
   */
  function BatteryReading(program: string, stdout: Option<string>): (r: Battery)
    requires BatteryOk(program, stdout)
    ensures program != "upower" && program != "acpi" ==> r == NoBattery
    ensures program == "acpi" ==> (r == NoBattery <==> AcpiLine(stdout) == "")
    ensures program == "upower" ==> |r.msg| >= 2
  {
    if program == "upower" then
      var parts := WordsOfLines(UpowerLines(stdout));
      Battery(Percentage(parts) + " " + State(parts) + " " + TimeToEmpty(parts), PercentageValue(parts))
    else if program == "acpi" then
      var line := AcpiLine(stdout);
      if line == "" then NoBattery
      else
        var words := Split(line)[2..];
        JoinCons(" ", words);
        Battery(Join(" ", words), PercentValue(Split(line)[3]))
    else NoBattery
  }

  /**
   * The loop of `get_battery` over the lines of `upower -i`: each field keeps
   * the value of the last line that carries its key.
   */
  method SummarizeUpower(bat: seq<string>) returns (msg: string, percVal: int)
    requires AllWordsOk(WordsOfLines(bat))
    ensures var parts := WordsOfLines(bat);
      && msg == Percentage(parts) + " " + State(parts) + " " + TimeToEmpty(parts)
      && percVal == PercentageValue(parts)
  {
    ghost var all := WordsOfLines(bat);
    percVal := 0;
    var state, time, percentage := "", "", "";
    var i := 0;
    while i < |bat|
      invariant i <= |bat| && AllWordsOk(all[..i])
      invariant percentage == Percentage(all[..i]) && percVal == PercentageValue(all[..i])
      invariant state == State(all[..i])
      invariant time == TimeToEmpty(all[..i])
    {
      var line := Strip(bat[i]);
      if Contains(line, "time to empty") {
        line := Replace(line, "time to empty", "time_to_empty");
      }
      var parts := Split(line);
      assert parts == all[i];
      FieldsNext(all, i);
      ghost var next := all[..i + 1];
      if Contains(parts[0], "percentage:") {
        percentage := parts[1];
        percVal := PercentValue(percentage);
      }
      assert percentage == Percentage(next) && percVal == PercentageValue(next);
      if Contains(parts[0], "state:") {
        state := parts[1];
      }
      assert state == State(next);
      if Contains(parts[0], "time_to_empty:") {
        time := Join(" ", parts[1..]);
      }
      assert time == TimeToEmpty(next);
      i := i + 1;
    }
    assert all[..i] == all;
    msg := percentage + " " + state + " " + time;
  }

  /**
   * `get_battery`. `stdout` is what the battery command printed, `None` when
   * running it raised.
   */
  method GetBattery(cmd: string, stdout: Option<string>) returns (msg: string, percVal: int)
    requires Split(cmd) != [] && BatteryOk(BaseCommand(cmd), stdout)
    ensures Battery(msg, percVal) == BatteryReading(BaseCommand(cmd), stdout)
  {
    msg, percVal := "", 0;
    var program := BaseCommand(cmd);
    if program == "upower" {
      var bat := UpowerLines(stdout);
      msg, percVal := SummarizeUpower(bat);
    } else if program == "acpi" {
      var bat := AcpiLine(stdout);
      if bat != "" {
        var parts := Split(bat);
        msg := Join(" ", parts[2..]);
        percVal := PercentValue(parts[3]);
      }
    }
  }

  // ---------------------------------------------------------------- get_battery: properties

  /** A stripped text with no words in it is empty. */
  lemma StrippedWithoutWords(s: string)
    requires IsStripped(s) && Split(s) == []
    ensures s == []
  {
    if s != [] {
      SplitByTrimLeft(s);
    }
  }

  /** A command's stripped output is empty exactly when it printed no words. */
  lemma OutputEmptyWithoutWords(stdout: Option<string>)
    ensures stdout.Some? ==> (Cmd2String(stdout.value) == [] <==> Split(stdout.value) == [])
  {
    if stdout.Some? {
      Cmd2StringWords(stdout.value);
      if Split(stdout.value) == [] {
        StrippedWithoutWords(Cmd2String(stdout.value));
      }
    }
  }

  /** A battery command other than `upower` and `acpi` gives no reading, whatever it printed. */
  lemma OtherProgramNoBattery(program: string, stdout: Option<string>)
    requires program != "upower" && program != "acpi"
    ensures BatteryOk(program, stdout) && BatteryReading(program, stdout) == NoBattery
  {
  }

  /** `acpi` gives no reading when it failed or printed no words. */
  lemma AcpiWithoutOutput(stdout: Option<string>)
    requires stdout.None? || Split(stdout.value) == []
    ensures BatteryOk("acpi", stdout) && BatteryReading("acpi", stdout) == NoBattery
  {
    if stdout.Some? {
      Cmd2StringWords(stdout.value);
      StrippedWithoutWords(Cmd2String(stdout.value));
      assert AcpiLine(stdout) == "";
    }
  }

  /** When `upower` fails the three empty fields are still joined: the message is two spaces. */
  lemma UpowerWithoutOutput()
    ensures BatteryOk("upower", None) && BatteryReading("upower", None) == Battery("  ", 0)
  {
    assert WordsOfLines(UpowerLines(None)) == [];
  }

  /** A line whose first word carries none of the three keys changes no field. */
  lemma UnkeyedLineIgnored(parts: seq<seq<string>>, words: seq<string>)
    requires AllWordsOk(parts) && |words| > 0
    requires !HasKey(words, "percentage:") && !HasKey(words, "state:") && !HasKey(words, "time_to_empty:")
    ensures AllWordsOk(parts + [words])
    ensures var all := parts + [words];
      && Percentage(all) == Percentage(parts) && PercentageValue(all) == PercentageValue(parts)
      && State(all) == State(parts) && TimeToEmpty(all) == TimeToEmpty(parts)
  {
    var all := parts + [words];
    assert all[..|all| - 1] == parts;
  }

  /** The time to empty splits back into exactly the words that followed its key. */
  lemma TimeToEmptyWords(lines: seq<string>)
    requires AllWordsOk(WordsOfLines(lines))
    ensures var parts := WordsOfLines(lines);
      var k := LastWithKey(parts, "time_to_empty:");
      Split(TimeToEmpty(parts)) == if k < 0 then [] else parts[k][1..]
  {
    var parts := WordsOfLines(lines);
    TimeToEmptyLast(parts);
    var k := LastWithKey(parts, "time_to_empty:");
    if k >= 0 {
      assert parts[k] == UpowerWords(lines[k]);
      SplitJoin(parts[k][1..]);
    }
  }

  /** A line without "time to empty" has the words `split()` finds in it. */
  lemma UpowerWordsPlain(line: string)
    requires !Contains(Strip(line), "time to empty")
    ensures UpowerWords(line) == Split(line)
  {
    SplitStrip(line);
  }

  /** Normalising "time to empty:" before whitespace and a value without the phrase. */
  lemma ReplaceTimeToEmpty(w: string, value: string)
    requires AllSpace(w) && !Contains(value, "time to empty")
    ensures Replace("time to empty:" + w + value, "time to empty", "time_to_empty") == "time_to_empty:" + (w + value)
  {
    var pat, rep := "time to empty", "time_to_empty";
    var body := "time to empty:" + w + value;
    assert body[..|pat|] == pat;
    assert body[|pat|..] == [':'] + (w + value);
    ReplaceSkip(':', w + value, pat, rep);
    ReplaceSpaces(w, value, pat, rep);
    ReplaceAbsent(value, pat, rep);
  }

  /**
   * A "time to empty:" line, indented and with the value aligned by any run
   * of whitespace as `upower -i` prints it, has the normalised key as its
   * first word, followed by the words of the value.
   */
  lemma UpowerWordsTimeToEmpty(u: string, w: string, value: string, v: string)
    requires AllSpace(u) && AllSpace(w) && AllSpace(v) && w != []
    requires IsStripped(value) && value != [] && !Contains(value, "time to empty")
    ensures UpowerWords(u + "time to empty:" + w + value + v) == ["time_to_empty:"] + Split(value)
  {
    var body := "time to empty:" + w + value;
    assert u + "time to empty:" + w + value + v == u + body + v;
    assert IsStripped(body) by {
      assert body[0] == 't' && body[|body| - 1] == value[|value| - 1];
    }
    StripPadded(u, body, v);
    assert body[..13] == "time to empty";
    assert Contains(body, "time to empty");
    ReplaceTimeToEmpty(w, value);
    assert IsToken("time_to_empty:");
    SplitTokenSpaces("time_to_empty:", w, value);
    assert UpowerWords(u + body + v) == Split("time_to_empty:" + (w + value));
  }

  /** The `acpi` message splits back into the words of its line from the third on. */
  lemma AcpiMessageWords(stdout: Option<string>)
    requires BatteryOk("acpi", stdout) && AcpiLine(stdout) != ""
    ensures Split(BatteryReading("acpi", stdout).msg) == Split(AcpiLine(stdout))[2..]
  {
    var words := Split(AcpiLine(stdout))[2..];
    assert forall i :: 0 <= i < |words| ==> IsToken(words[i]);
    SplitJoin(words);
  }

  /** Two words and a space-joined list, separated by single spaces, split back into the words. */
  lemma SummaryWords(p: string, st: string, ws: seq<string>)
    requires IsToken(p) && IsToken(st) && ws != []
    requires forall i :: 0 <= i < |ws| ==> IsToken(ws[i])
    ensures Split(p + " " + st + " " + Join(" ", ws)) == [p, st] + ws
  {
    var rest := [st] + ws;
    var all := [p] + rest;
    JoinCons(" ", all);
    assert all[1..] == rest;
    JoinCons(" ", rest);
    assert rest[1..] == ws;
    assert Join(" ", all) == p + " " + st + " " + Join(" ", ws);
    assert all == [p, st] + ws;
    SplitJoin(all);
  }

  /**
   * With all three fields present, the `upower` message splits back into the
   * percentage, the state and the words of the time to empty, in that order.
   */
  lemma UpowerMessageWords(lines: seq<string>)
    requires AllWordsOk(WordsOfLines(lines))
    requires var parts := WordsOfLines(lines);
      && LastWithKey(parts, "percentage:") >= 0
      && LastWithKey(parts, "state:") >= 0
      && LastWithKey(parts, "time_to_empty:") >= 0
      && |parts[LastWithKey(parts, "time_to_empty:")]| > 1
    ensures var parts := WordsOfLines(lines);
      Split(Percentage(parts) + " " + State(parts) + " " + TimeToEmpty(parts))
        == [parts[LastWithKey(parts, "percentage:")][1], parts[LastWithKey(parts, "state:")][1]]
           + parts[LastWithKey(parts, "time_to_empty:")][1..]
  {
    var parts := WordsOfLines(lines);
    PercentageLast(parts);
    StateLast(parts);
    TimeToEmptyLast(parts);
    var kp, ks, kt := LastWithKey(parts, "percentage:"), LastWithKey(parts, "state:"), LastWithKey(parts, "time_to_empty:");
    assert parts[kp] == UpowerWords(lines[kp]) && parts[ks] == UpowerWords(lines[ks]);
    assert parts[kt] == UpowerWords(lines[kt]);
    SummaryWords(parts[kp][1], parts[ks][1], parts[kt][1..]);
  }

  /**
   * An `acpi` line of at least four words whose fourth word is a percentage
   * reads as its words from the third on, and the number in the fourth.
   */
  lemma AcpiReading(words: seq<string>)
    requires |words| > 3 && IsPercent(words[3])
    requires forall i :: 0 <= i < |words| ==> IsToken(words[i])
    ensures BatteryOk("acpi", Some(Join(" ", words)))
    ensures BatteryReading("acpi", Some(Join(" ", words))) == Battery(Join(" ", words[2..]), PercentValue(words[3]))
  {
    var line := Join(" ", words);
    JoinTokens(words);
    StripStripped(line);
    SplitLinesSingle(line);
    SplitJoin(words);
    assert AcpiLine(Some(line)) == line;
  }

  /** The fourth `acpi` word keeps its trailing comma; the number before `%` is read. */
  lemma PercentWithComma()
    ensures IsPercent("58%,") && PercentValue("58%,") == 58
  {
    BeforeFirstAt("58%,", '%', 2);
    assert ParseInt("58") == Some(58) by {
      assert NumeralValue("5") == 5;
      assert "58"[..1] == "5";
    }
  }

  /** The words of the `acpi` example line are tokens. */
  lemma AcpiExampleWords(words: seq<string>)
    requires words == ["Battery", "0:", "Discharging,", "58%,", "01:30:00", "remaining"]
    ensures forall i :: 0 <= i < |words| ==> IsToken(words[i])
  {
    assert IsToken(words[0]) && IsToken(words[1]) && IsToken(words[2]);
    assert IsToken(words[3]) && IsToken(words[4]) && IsToken(words[5]);
  }

  /** The message words of the `acpi` example, joined. */
  lemma AcpiExampleMessage()
    ensures Join(" ", ["Discharging,", "58%,", "01:30:00", "remaining"]) == "Discharging, 58%, 01:30:00 remaining"
  {
  }

  /**
   * The `acpi` line `Battery 0: Discharging, 58%, 01:30:00 remaining` reads as
   * the message `Discharging, 58%, 01:30:00 remaining` at 58 percent.
   */
  lemma AcpiExample(words: seq<string>)
    requires words == ["Battery", "0:", "Discharging,", "58%,", "01:30:00", "remaining"]
    ensures BatteryOk("acpi", Some(Join(" ", words)))
    ensures BatteryReading("acpi", Some(Join(" ", words))) == Battery("Discharging, 58%, 01:30:00 remaining", 58)
  {
    AcpiExampleWords(words);
    PercentWithComma();
    AcpiReading(words);
    var message := words[2..];
    assert message == ["Discharging,", "58%,", "01:30:00", "remaining"];
    AcpiExampleMessage();
    assert Join(" ", message) == "Discharging, 58%, 01:30:00 remaining";
    assert PercentValue(words[3]) == 58;
  }

  /** An indented "key value" line without the phrase "time to empty" reads as the two words. */
  lemma UpowerWordsPair(u: string, key: string, value: string, v: string)
    requires AllSpace(u) && AllSpace(v) && IsToken(key) && IsToken(value)
    requires !Contains(key + " " + value, "time to empty")
    ensures UpowerWords(u + key + " " + value + v) == [key, value]
  {
    var body := key + " " + value;
    var line := u + body + v;
    assert u + key + " " + value + v == line;
    TokenPair(key, value);
    StripPadded(u, body, v);
    assert Strip(line) == body;
    UpowerWordsPlain(line);
    SplitStrip(line);
    assert UpowerWords(line) == Split(body);
  }

  /** Characters of the example's texts. */
  lemma UpowerExampleChars()
    ensures 'y' in "time to empty"
    ensures 'y' !in "state:" && 'y' !in "discharging" && 'y' !in "percentage:" && 'y' !in "73%"
    ensures 'y' !in "2.5" && 'y' !in "hours" && 'y' !in " "
    ensures 'p' in "percentage:" && 'p' !in "state:"
    ensures 'm' in "time_to_empty:" && 'm' !in "state:" && 'm' !in "percentage:"
    ensures 's' in "state:" && 's' !in "percentage:" && 's' !in "time_to_empty:"
    ensures 'g' in "percentage:" && 'g' !in "time_to_empty:"
  {
    assert "time to empty"[12] == 'y';
    assert "percentage:"[0] == 'p';
    assert "time_to_empty:"[2] == 'm';
    assert "state:"[0] == 's';
    assert "percentage:"[8] == 'g';
  }

  /** The joined example lines start and end with a word. */
  lemma UpowerExampleStripped()
    ensures IsStripped(Join("\n", ["state: discharging", "  percentage: 73%", "  time to empty: 2.5 hours"]))
  {
  }

  /** Each line of the example is words joined by single spaces, the last two indented. */
  lemma UpowerExampleLineWords()
    ensures "state: discharging" == Join(" ", ["state:", "discharging"])
    ensures "  percentage: 73%" == "  " + Join(" ", ["percentage:", "73%"])
    ensures NoLineBreak("  ")
  {
  }

  /** The time line of the example is indented words joined by single spaces. */
  lemma UpowerExampleTimeLine()
    ensures "  time to empty: 2.5 hours" == "  " + Join(" ", ["time", "to", "empty:", "2.5", "hours"])
  {
  }

  /** The words of the example. */
  lemma UpowerExampleTokens()
    ensures IsToken("state:") && IsToken("discharging") && IsToken("percentage:") && IsToken("73%")
    ensures IsToken("time") && IsToken("to") && IsToken("empty:") && IsToken("2.5") && IsToken("hours")
  {
  }

  /** No line of the example holds a line break. */
  lemma UpowerExampleNoBreaks()
    ensures NoLineBreak("state: discharging") && NoLineBreak("  percentage: 73%") && NoLineBreak("  time to empty: 2.5 hours")
  {
    UpowerExampleLineWords();
    UpowerExampleTimeLine();
    var w1, w2, w3 := ["state:", "discharging"], ["percentage:", "73%"], ["time", "to", "empty:", "2.5", "hours"];
    UpowerExampleTokens();
    JoinTokens(w1);
    JoinTokens(w2);
    JoinTokens(w3);
    NoLineBreakConcat("  ", Join(" ", w2));
    NoLineBreakConcat("  ", Join(" ", w3));
  }

  /** The example output, indented as `upower -i` prints it, splits into its three lines. */
  lemma UpowerExampleLines(ls: seq<string>)
    requires ls == ["state: discharging", "  percentage: 73%", "  time to empty: 2.5 hours"]
    ensures UpowerLines(Some("  " + Join("\n", ls))) == ls
  {
    UpowerExampleStripped();
    UpowerExampleNoBreaks();
    assert AllSpace("  ") && AllSpace("");
    assert "  " + Join("\n", ls) == "  " + Join("\n", ls) + "";
    StripPadded("  ", Join("\n", ls), "");
    SplitLinesJoin(ls);
  }

  /** Each line of the example as the indentation, key, one space and value that `UpowerWords` reads. */
  lemma UpowerExampleLineParts()
    ensures "state: discharging" == "" + "state:" + " " + "discharging" + ""
    ensures "  percentage: 73%" == "  " + "percentage:" + " " + "73%" + ""
  {
  }

  /** The time line of the example as indentation, key, one space and a two-word value. */
  lemma UpowerExampleTimeParts()
    ensures "  time to empty: 2.5 hours" == "  " + "time to empty:" + " " + ("2.5" + " " + "hours") + ""
  {
  }

  /** The first two example lines read as their two words. */
  lemma UpowerExamplePairs()
    ensures UpowerWords("state: discharging") == ["state:", "discharging"]
    ensures UpowerWords("  percentage: 73%") == ["percentage:", "73%"]
  {
    UpowerExampleLineParts();
    UpowerExampleTokens();
    UpowerExampleChars();
    assert AllSpace("") && AllSpace("  ");
    MissingCharNotContained("state:" + " " + "discharging", "time to empty", 'y');
    MissingCharNotContained("percentage:" + " " + "73%", "time to empty", 'y');
    UpowerWordsPair("", "state:", "discharging", "");
    UpowerWordsPair("  ", "percentage:", "73%", "");
  }

  /** A "time to empty:" line whose value is two words reads as the normalised key and those words. */
  lemma UpowerWordsTimePair(u: string, x: string, y: string)
    requires AllSpace(u) && IsToken(x) && IsToken(y)
    requires !Contains(x + " " + y, "time to empty")
    ensures UpowerWords(u + "time to empty:" + " " + (x + " " + y) + "") == ["time_to_empty:", x, y]
  {
    assert AllSpace(" ") && AllSpace("");
    TokenPair(x, y);
    UpowerWordsTimeToEmpty(u, " ", x + " " + y, "");
  }

  /** The example's time line reads as the normalised key and the two words of the value. */
  lemma UpowerExampleTime()
    ensures UpowerWords("  time to empty: 2.5 hours") == ["time_to_empty:", "2.5", "hours"]
  {
    UpowerExampleTimeParts();
    UpowerExampleTokens();
    UpowerExampleChars();
    assert AllSpace("  ");
    MissingCharNotContained("2.5" + " " + "hours", "time to empty", 'y');
    UpowerWordsTimePair("  ", "2.5", "hours");
  }

  /** The example lines read as their words, the time key normalised. */
  lemma UpowerExampleWords(ls: seq<string>)
    requires ls == ["state: discharging", "  percentage: 73%", "  time to empty: 2.5 hours"]
    ensures var parts := WordsOfLines(ls);
      && |parts| == 3
      && parts[0] == ["state:", "discharging"]
      && parts[1] == ["percentage:", "73%"]
      && parts[2] == ["time_to_empty:", "2.5", "hours"]
  {
    UpowerExamplePairs();
    UpowerExampleTime();
  }

  /** The key tests the example's fields go through. */
  lemma UpowerExampleKeys()
    ensures Contains("state:", "state:") && !Contains("state:", "percentage:") && !Contains("state:", "time_to_empty:")
    ensures Contains("percentage:", "percentage:") && !Contains("percentage:", "state:") && !Contains("percentage:", "time_to_empty:")
    ensures Contains("time_to_empty:", "time_to_empty:") && !Contains("time_to_empty:", "percentage:") && !Contains("time_to_empty:", "state:")
  {
    UpowerExampleChars();
    MissingCharNotContained("state:", "percentage:", 'p');
    MissingCharNotContained("state:", "time_to_empty:", 'm');
    MissingCharNotContained("percentage:", "state:", 's');
    MissingCharNotContained("percentage:", "time_to_empty:", 'm');
    MissingCharNotContained("time_to_empty:", "percentage:", 'g');
    MissingCharNotContained("time_to_empty:", "state:", 's');
  }

  /** "73%" reads as 73, and the time words join back into "2.5 hours". */
  lemma UpowerExamplePercent()
    ensures IsPercent("73%") && PercentValue("73%") == 73
    ensures Join(" ", ["2.5", "hours"]) == "2.5 hours"
  {
    BeforeFirstAt("73%", '%', 2);
    assert ParseInt("73") == Some(73) by {
      assert NumeralValue("7") == 7;
      assert "73"[..1] == "7";
    }
  }

  /**
   * Three `upower` lines read as: state from the first, percentage from the
   * second, time to empty from the third, when each carries only its key.
   */
  lemma FieldsOfThree(parts: seq<seq<string>>)
    requires |parts| == 3
    requires WordsOk(parts[0]) && WordsOk(parts[1]) && WordsOk(parts[2])
    requires HasKey(parts[0], "state:") && !HasKey(parts[1], "state:") && !HasKey(parts[2], "state:")
    requires HasKey(parts[1], "percentage:") && !HasKey(parts[2], "percentage:")
    requires HasKey(parts[2], "time_to_empty:")
    ensures AllWordsOk(parts)
    ensures Percentage(parts) == parts[1][1] && PercentageValue(parts) == PercentValue(parts[1][1])
    ensures State(parts) == parts[0][1] && TimeToEmpty(parts) == Join(" ", parts[2][1..])
    ensures LastWithKey(parts, "state:") == 0 && LastWithKey(parts, "percentage:") == 1
    ensures LastWithKey(parts, "time_to_empty:") == 2
  {
    assert AllWordsOk(parts) by {
      forall i | 0 <= i < 3
        ensures WordsOk(parts[i])
      {
        if i == 0 {
        } else if i == 1 {
        } else {
        }
      }
    }
    assert parts[..2][..1] == parts[..1];
    assert State(parts) == State(parts[..2]) == State(parts[..1]) == parts[0][1];
  }

  /** The example's state line is well formed and carries the state key. */
  lemma UpowerExampleStateOk()
    ensures WordsOk(["state:", "discharging"]) && HasKey(["state:", "discharging"], "state:")
  {
    UpowerExampleKeys();
  }

  /** The example's percentage line is well formed and carries only the percentage key. */
  lemma UpowerExamplePercentageOk()
    ensures WordsOk(["percentage:", "73%"]) && HasKey(["percentage:", "73%"], "percentage:")
    ensures !HasKey(["percentage:", "73%"], "state:")
  {
    UpowerExampleKeys();
    UpowerExamplePercent();
  }

  /** The example's time line is well formed and carries only the time key. */
  lemma UpowerExampleTimeOk()
    ensures WordsOk(["time_to_empty:", "2.5", "hours"]) && HasKey(["time_to_empty:", "2.5", "hours"], "time_to_empty:")
    ensures !HasKey(["time_to_empty:", "2.5", "hours"], "state:") && !HasKey(["time_to_empty:", "2.5", "hours"], "percentage:")
  {
    UpowerExampleKeys();
  }

  /** The example's words give the three fields. */
  lemma UpowerExampleFields(parts: seq<seq<string>>)
    requires |parts| == 3
    requires parts[0] == ["state:", "discharging"]
    requires parts[1] == ["percentage:", "73%"]
    requires parts[2] == ["time_to_empty:", "2.5", "hours"]
    ensures AllWordsOk(parts)
    ensures Percentage(parts) == "73%" && PercentageValue(parts) == 73
    ensures State(parts) == "discharging" && TimeToEmpty(parts) == "2.5 hours"
    ensures LastWithKey(parts, "state:") == 0 && LastWithKey(parts, "percentage:") == 1
    ensures LastWithKey(parts, "time_to_empty:") == 2
  {
    UpowerExampleStateOk();
    UpowerExamplePercentageOk();
    UpowerExampleTimeOk();
    UpowerExamplePercent();
    FieldsOfThree(parts);
    assert parts[2][1..] == ["2.5", "hours"];
  }

  /** The example's message. */
  lemma UpowerExampleMessage()
    ensures "73%" + " " + "discharging" + " " + "2.5 hours" == "73% discharging 2.5 hours"
  {
  }

  /**
   * `upower -i` output with the lines "state: discharging",
   * "percentage: 73%" and "time to empty: 2.5 hours", indented, reads as the
   * message "73% discharging 2.5 hours" at 73 percent.
   */
  lemma UpowerExample(ls: seq<string>)
    requires ls == ["state: discharging", "  percentage: 73%", "  time to empty: 2.5 hours"]
    ensures BatteryOk("upower", Some("  " + Join("\n", ls)))
    ensures BatteryReading("upower", Some("  " + Join("\n", ls))) == Battery("73% discharging 2.5 hours", 73)
    ensures var parts := WordsOfLines(ls);
      && AllWordsOk(parts)
      && LastWithKey(parts, "state:") == 0
      && LastWithKey(parts, "percentage:") == 1
      && LastWithKey(parts, "time_to_empty:") == 2
      && |parts[2]| > 1
  {
    UpowerExampleLines(ls);
    UpowerExampleWords(ls);
    UpowerExampleFields(WordsOfLines(ls));
    UpowerExampleMessage();
    UpowerMessageWords(ls);
  }
}

=== FILE: wrappers.dfy ===
/** The optional value used wherever the applet catches a failure and carries on. */
module Wrappers {

  datatype Option<+T> = None | Some(value: T)
}
